=== FILE: README.md ===
# all0333b-mqtt core, modelled in Dafny

`all0333b-mqtt.py` is a bridge between an ALL0333B DSL modem and an MQTT
broker. It runs `ifconfig` on the modem and scans the output for the
`nas0` interface. From that interface it takes the link-state word and the
RX/TX byte counters. It turns the counters into byte rates, correcting for
32-bit wrap-around. It then publishes the link state and an attribute
dictionary on topics under `<discovery_prefix>/sensor/<host:port>/<object_id>`,
each only when it changed.

The model covers that core:

- **Text** (`text.dfy`): the byte-string helpers the scan relies on. That is
  `strip()`, `split()`, `split(b':')` and `int()`, plus the decimal
  rendering of `"{}".format`.
- **Topics** (`topics.dfy`): the topic prefix built in `__init__`,
  including the sanitising of `host:port` with `re.sub(r'[^a-zA-Z0-9]', '_', ...)`.
- **Metrics** (`metrics.dfy`): `update_rate` as a pure function
  `ApplyRate` on the two dictionaries `rates` and `state`, plus `round` and
  the wrap correction.
- **Scanner** (`scanner.dfy`): the loop of `query_ifconfig` as a pure
  specification. `Trace` lists the effects the loop has, in order: set the
  link state, feed a counter sample, or raise. `Perform` applies them.
- **Publisher** (`publisher.dfy`): the change gate of `update_sensor` as a
  pure function `Gate`, with `Changed` as an independent reference
  definition.
- **Bridges** (`bridge.dfy`): the class `Bridge`, whose fields `rates`,
  `state`, `lastPub` and `outbox` are updated in place.
  - `UpdateRate`, `ScanIfconfig` and `UpdateSensor` are the imperative
    methods, with the source's loops and branches.
  - Each is proved equal to the pure specification above: `ApplyRate`,
    `Perform` of `Trace`, and `Gate`.
  - `outbox` records what is handed to the MQTT client, as pairs of
    topic and payload.

## Model

| member | source | states |
|---|---|---|
| Text.Strip | all0333b-mqtt.py:144 | `strip()`: the result neither starts nor ends with whitespace; `Text.StripIsSlice` shows it is the part of the line between a leading and a trailing run of whitespace |
| Text.StripIsSlice | all0333b-mqtt.py:144-148 | `strip()` keeps a contiguous slice of the line and drops only whitespace before and after it; with `Text.Strip`'s contract, that whitespace is all of it |
| Text.Words | all0333b-mqtt.py:144 | `split()` yields only non-empty tokens that contain no whitespace |
| Text.WordsUnwords | all0333b-mqtt.py:148 | `split()` of words joined by single spaces gives back exactly those words |
| Text.StripUnwords | all0333b-mqtt.py:146 | `strip()` of an indented line of words removes exactly the indentation |
| Text.SplitOn | all0333b-mqtt.py:149-150 | `split(b':')`: at least one piece, and no piece contains the separator; with `Text.SplitOnJoins` this determines the pieces |
| Text.SplitOnJoins | all0333b-mqtt.py:149-150 | `split(b':')` loses nothing: joining the pieces with `:` gives the token back |
| Text.ParseIntRoundTrip | all0333b-mqtt.py:149-150 | `int()` reads back any integer's decimal rendering |
| Text.ParseInt | all0333b-mqtt.py:149-150 | `int()`: a string it accepts holds only digits and `_`, besides at most a leading sign, and at least one digit, so a field such as `KiB)` or `(0.9` is rejected with `ValueError`; a negative value comes from a leading `-`; `Text.ParseIntRoundTrip` shows it reads back every decimal rendering |
| Text.IntToDecimal | all0333b-mqtt.py:39 | `"{}".format(port)`: the digits of the magnitude, after `-` for a negative number; `Text.ParseIntRoundTrip` shows `int()` inverts it |
| Text.DecimalValue | all0333b-mqtt.py:149-150 | a decimal rendering is a well-formed digit string whose value is the number |
| Topics.Sanitize | all0333b-mqtt.py:39 | length is preserved; exactly the characters outside `[a-zA-Z0-9]` become `_`, all others are kept |
| Topics.SanitizeAlphabet | all0333b-mqtt.py:39 | the sanitised endpoint holds only letters, digits and `_`, so it is a single topic level (no `/`) |
| Topics.SanitizeIdempotent | all0333b-mqtt.py:39 | sanitising twice is the same as once |
| Topics.Endpoint | all0333b-mqtt.py:39 | `"{}:{}".format(host, port)`: the host, `:`, then the port's decimal rendering, each read back at its position |
| Topics.Prefix | all0333b-mqtt.py:36-41 | the prefix is `<discovery>/sensor/`, then the sanitised `host:port`, then `/<object_id>`, and each part can be read back at its position |
| Topics.DefaultPrefix | all0333b-mqtt.py:36-41 | with the default configuration the prefix is `homeassistant/sensor/172_16_1_254_23/all0333b` |
| Topics.TopicOf | all0333b-mqtt.py:176 | a topic is the prefix, `/`, then the key, and both can be recovered from it |
| Metrics.CounterDelta | all0333b-mqtt.py:161-163 | for 32-bit readings the corrected difference lies in [0, 2^32) and equals `(value - lv) mod 2^32`; a counter that did not decrease gives the plain difference |
| Metrics.RoundHalfEvenIsNearest | all0333b-mqtt.py:165 | rounding picks an integer at most 1/2 away, never negative for a non-negative input, and even on a tie |
| Metrics.RoundToScaleIsClose | all0333b-mqtt.py:165 | rounding to a multiple of 1/scale keeps a non-negative value non-negative and moves it by at most half a unit |
| Metrics.RoundIsClose | all0333b-mqtt.py:165 | `round(rate, precision)` of a non-negative rate is non-negative and within half of 10^-precision of the rate |
| Metrics.Round | all0333b-mqtt.py:165 | `round(x, precision)` on exact reals; characterised by `Metrics.RoundIsClose` (within half of 10^-precision, sign kept) and `Metrics.RoundHalfEvenIsNearest` (ties to even) |
| Metrics.RateKey | all0333b-mqtt.py:165 | `'{}_rate'.format(name)`: the key is the counter's name followed by the five characters `_rate` |
| Metrics.RateKeyInjective | all0333b-mqtt.py:165 | two counters with different names never share a rate key, so `rx_rate` and `tx_rate` are kept apart |
| Metrics.NextRate | all0333b-mqtt.py:158-167 | the entry always ends with this sample's `ts` and `lv`; there is no rate exactly when time did not advance; otherwise the rate times the elapsed time is the wrap-corrected difference, and it is non-negative for 32-bit readings |
| Metrics.Baseline | all0333b-mqtt.py:157 | `rates.setdefault(...)`; characterised by `Metrics.FirstSample` (a new counter starts from this sample with no rate) and `Metrics.FreshSample`/`Metrics.StaleSample` (an existing entry is used as stored) |
| Metrics.ApplyRate | all0333b-mqtt.py:156-167 | `update_rate` on the two dictionaries; characterised by `Metrics.BaselineReset`, `Metrics.FirstSample`, `Metrics.StaleSample` and `Metrics.FreshSample` |
| Metrics.BaselineReset | all0333b-mqtt.py:157-167 | in either branch `rates[name]` ends with `ts` and `lv` of this sample; no other counter's entry changes |
| Metrics.FirstSample | all0333b-mqtt.py:157-159 | a first sample creates `rates[name]` with no rate and leaves `state` untouched |
| Metrics.StaleSample | all0333b-mqtt.py:158-159 | a timestamp not after the stored one clears the rate and leaves `state` (including an earlier `<name>_rate`) unchanged |
| Metrics.FreshSample | all0333b-mqtt.py:160-165 | a later timestamp gives the rate `diff / dt`, which is non-negative; `diff` is in [0, 2^32) and congruent to the raw difference; only `<name>_rate` of `state` changes, to the rounded rate |
| Metrics.WrapExample | all0333b-mqtt.py:161-164 | 4294967290 followed by 5 one second later gives a rate of 11 |
| Metrics.FeedBaseline | all0333b-mqtt.py:166-167 | after a sequence of samples the stored baseline is the last sample |
| Metrics.FeedSplit | all0333b-mqtt.py:156-167 | feeding n+1 samples is feeding n samples and then the last one |
| Metrics.MonotoneRates | all0333b-mqtt.py:160-164 | with increasing timestamps and non-decreasing values, each later sample's rate is exactly `(v_n - v_{n-1}) / (t_n - t_{n-1})` |
| Scanner.IsInterfaceLine | all0333b-mqtt.py:152 | `line.startswith(b'nas0')` on the unstripped line; its effect on the flags is stated by `Scanner.LineStepIdle` and `Scanner.LineStepFlags` |
| Scanner.IsCounterLine | all0333b-mqtt.py:146 | `line.strip().startswith(b'RX bytes')`; `Scanner.CounterLineToken` shows such a line is never blank |
| Scanner.StateToken | all0333b-mqtt.py:144 | the link-state word is a non-empty token without whitespace; the only exception is `IndexError` |
| Scanner.StateTokenBlank | all0333b-mqtt.py:144 | `line.strip().split()[0]` raises `IndexError` exactly when the line is blank |
| Scanner.StateTokenIsFirstWord | all0333b-mqtt.py:144 | the link-state word is the line's first word: it follows only whitespace and ends at whitespace or the end of the line |
| Scanner.CounterLineToken | all0333b-mqtt.py:142-146 | a counter line always has a first word, so reading the link state from it cannot raise |
| Scanner.CounterField | all0333b-mqtt.py:149-150 | the field is the integer after the first `:` of token k; a missing token or a missing `:` raises `IndexError`, an unparseable piece raises `ValueError`, and it succeeds exactly when that piece parses |
| Scanner.ByteFieldValue | all0333b-mqtt.py:149-150 | a `bytes:<n>` token yields `n` |
| Scanner.StateActions | all0333b-mqtt.py:142-144 | the first `if` sets the link state to `t` iff the previous line was `nas0` and the first token is `t`; it raises iff the line has no token; it never feeds a counter |
| Scanner.CounterActions | all0333b-mqtt.py:146-150 | the second `if` raises iff one of the two fields is malformed. A bad token 1 gives only its exception. Otherwise `rx` is fed from token 1 first, then `tx` from token 5, or the exception of a bad token 5 |
| Scanner.FirstError | all0333b-mqtt.py:141-154 | the scan ends with an exception iff its trace contains a raise, and it is that raise's exception |
| Scanner.LineStep | all0333b-mqtt.py:141-154 | one iteration of the loop; characterised by `Scanner.LineStepState`, `Scanner.LineStepSamples`, `Scanner.LineStepIdle` and `Scanner.LineStepFlags` |
| Scanner.Trace | all0333b-mqtt.py:141-154 | the effects of the whole loop; characterised by `Scanner.TraceAppend`, `Scanner.NoInterfaceNoEffect`, `Scanner.StateComesAfterInterface`, `Scanner.InterfaceSetsState`, `Scanner.SampleComesAfterInterface`, `Scanner.CounterLineSamples` and `Scanner.SamplesPerInterface` |
| Scanner.Perform | all0333b-mqtt.py:141-154 | the effects applied to `state` and `rates`; characterised by `Scanner.PerformConcat` and `Scanner.PerformStopsAtRaise` |
| Scanner.TraceAppend | all0333b-mqtt.py:141-154 | scanning two blocks of lines is scanning the first and then, unless it raised, the second from the flags the first left |
| Scanner.HaveInterfaceAfter | all0333b-mqtt.py:146-154 | after a `nas0` line and no counter line since, `have_interface` is still set |
| Scanner.PerformConcat | all0333b-mqtt.py:141-154 | applying effects that do not raise and then more effects is applying both in sequence |
| Scanner.PerformStopsAtRaise | all0333b-mqtt.py:141-154 | nothing after an exception is applied, and the scan's exception is the first one |
| Scanner.LineStepState | all0333b-mqtt.py:142-144 | an iteration sets the link state to `t` iff `next_line` was set and `t` is the line's first token |
| Scanner.LineStepSamples | all0333b-mqtt.py:146-150 | an iteration feeds a counter only for an `RX bytes` line while `have_interface` is set, only `rx`/`tx`, with the value of token 1/5 |
| Scanner.LineStepIdle | all0333b-mqtt.py:152-154 | with both flags clear a line has no effect; it raises both flags iff it starts with `nas0` |
| Scanner.LineStepFlags | all0333b-mqtt.py:142-154 | after an iteration, `next_line` is "this line starts with `nas0`", and `have_interface` is set by `nas0` and cleared by a counter line |
| Scanner.NoInterfaceNoEffect | all0333b-mqtt.py:141-154 | without a `nas0` line the scan has no effect on `state` and `rates` and raises nothing |
| Scanner.StateComesAfterInterface | all0333b-mqtt.py:142-154 | the link state is only ever set from the line right after a `nas0` line |
| Scanner.InterfaceSetsState | all0333b-mqtt.py:142-154 | conversely, when the scan reached the line after a `nas0` line, that line sets the link state to its first word, or ends the scan with `IndexError` when it is blank |
| Scanner.SampleComesAfterInterface | all0333b-mqtt.py:146-154 | every counter sample comes from the first `RX bytes` line after a `nas0` line, `rx` from token 1 and `tx` from token 5 |
| Scanner.CounterLineFeeds | all0333b-mqtt.py:146-154 | conversely, when the scan reached the first counter line after a `nas0` line, that line's two `update_rate` calls (or their exception) are in the trace, after effects that did not raise |
| Scanner.CounterLineSamples | all0333b-mqtt.py:146-154 | that line feeds `rx` from token 1 and then, immediately, `tx` from token 5. A malformed field ends the scan with its exception, after `rx` when only token 5 is bad |
| Scanner.SamplesPerInterface | all0333b-mqtt.py:146-154 | at most two samples are fed per `nas0` line, because a counter line clears `have_interface` |
| Scanner.StateLineStep | all0333b-mqtt.py:142-144 | right after `nas0`, an indented line of words sets its first word as the link state |
| Scanner.CounterLineStep | all0333b-mqtt.py:146-150 | under an interface, the line `RX bytes:<rx> (0.9 KiB) TX bytes:<tx> (1.9 KiB)` feeds `rx`, then `tx`, and clears `have_interface` |
| Scanner.IfconfigBlock | all0333b-mqtt.py:141-154 | a `nas0` line, a flags line and a counter line produce exactly "set state, feed rx, feed tx" |
| Publisher.StatePayload | all0333b-mqtt.py:171 | `state.get('state')`: absent (`None`) exactly when no link state was read |
| Publisher.AttributesOf | all0333b-mqtt.py:172 | the attributes cover exactly the keys of `state` other than `"state"`, with their values |
| Publisher.Outputs | all0333b-mqtt.py:170-173 | `pub` offers `state` first, then `attributes` |
| Publisher.Messages | all0333b-mqtt.py:176 | each payload is published on `<prefix>/<key>`, in order |
| Publisher.LastSent | all0333b-mqtt.py:175 | `last_pub.get(k, None)`; characterised by `Publisher.Changed` and `Publisher.GateRecords` |
| Publisher.Gate | all0333b-mqtt.py:174-177 | what the loop sends is drawn from what was offered |
| Publisher.Changed | all0333b-mqtt.py:175 | the reference definition: an output is in the set iff it was offered and differs from `last_pub.get(k, None)` |
| Publisher.GateSendsChanged | all0333b-mqtt.py:174-177 | a publish happens exactly for the outputs whose value differs from what was last published under their key |
| Publisher.GateRecords | all0333b-mqtt.py:177 | afterwards `last_pub[k]` equals the value offered for `k`, and keys not offered keep theirs |
| Publisher.GateQuiet | all0333b-mqtt.py:174-177 | when every offered value equals the remembered one, nothing is sent and the memory is unchanged |
| Publisher.SecondPublishSilent | all0333b-mqtt.py:169-177 | calling `update_sensor` twice with `state` unchanged publishes nothing the second time |
| Publisher.FirstPublish | all0333b-mqtt.py:170-177 | the first call always publishes the attributes; it publishes the link state iff one was read |
| Bridges.Bridge.constructor | all0333b-mqtt.py:36-41 | the bridge starts with the prefix built from the configuration and with empty dictionaries |
| Bridges.Bridge.UpdateRate | all0333b-mqtt.py:156-167 | the in-place update of `rates` and `state` ends where `ApplyRate` says |
| Bridges.Bridge.ReadLinkState | all0333b-mqtt.py:142-144 | `state["state"]` becomes the first token, or `IndexError` with `state` unchanged |
| Bridges.Bridge.ReadCounters | all0333b-mqtt.py:148-150 | the two `update_rate` calls have the effects of `CounterActions`, and the error is that of the first malformed field |
| Bridges.Bridge.ScanLine | all0333b-mqtt.py:142-154 | one iteration applies the effects of `LineStep`, and returns its exception or else its new flags |
| Bridges.Bridge.ScanIfconfig | all0333b-mqtt.py:138-154 | the loop leaves `rates` and `state` as `Perform` of `Trace` prescribes, and returns the exception that stopped it, if any |
| Bridges.Bridge.UpdateSensor | all0333b-mqtt.py:169-177 | `last_pub` ends as `Gate` says, and exactly the outputs `Gate` sends are published, in order, on `<prefix>/<key>` |

## Left out

- The telnet session is not modelled because it is network I/O: `handle_connection`, `wait_for_prompt`, `read_until`/`write`, `read_very_eager` and the reconnect loop `connect_loop`. The scan receives the lines of the `ifconfig` output as a sequence, so `data.splitlines()` is not modelled.
- The watchdog in `main` and the `self.alive` assignments are left out; they exist only for cross-thread liveness.
- The MQTT client is left out: setup, `on_connect`, `will_set`, `loop_start` and the discovery payload. `publish` calls are recorded in `outbox` instead.
- YAML configuration loading and its defaults are left out. The prefix parts and `precision` are constructor parameters.
- `time.time()` is left out; the scan takes the timestamp `now` as a parameter.
- `.decode()` and byte handling are not modelled: lines are strings. The whitespace set of `strip()`/`split()` is the ASCII one used by `bytes`.
- Floating point is not modelled: rates and timestamps are exact reals.
  - `Metrics.Round` models `round(x, precision)` as exact rounding to the nearest multiple of 10^-precision, ties to even.
  - Python rounds the binary float, so a tie can come out differently.
- `json.dumps` is not modelled: the attributes payload carries the dictionary itself, and comparing payloads compares dictionaries.
  - This matches comparing the JSON strings, because keys are never removed from `state`.
  - So equal dictionaries list their keys in the same insertion order.
- `int()` is modelled for an optional sign and ASCII digits with single underscores. Leading/trailing whitespace is not modelled (tokens from `split()` have none), nor are non-ASCII digits.
- Metrics.RoundIsClose: stated only for `precision >= 0`. `Metrics.Round` also defines the negative case, where Python rounds to tens, hundreds and so on.
- A parse error is not recovered locally. A blank line after `nas0`, or a missing or malformed counter field, raises out of `query_ifconfig`. `connect_loop` (lines 97-104) has no `except`, so the connection is never reopened: its `finally` clears `alive`, and the watchdog loop in `main` (lines 90-94) then returns, which ends the process. The model keeps what matters to the core:
  - `ScanIfconfig` returns the exception;
  - updates made before the exception are kept;
  - later lines are not scanned.
- On a timestamp that did not advance, only `rates[name]['rate']` is cleared. A `<name>_rate` already in `state` is carried forward, not removed, and stays in the attributes payload (see `Metrics.StaleSample`).

=== FILE: bridge.dfy ===
/**
 * The bridge object: the topic prefix it publishes under, the counter
 * memory `rates`, the metric map `state` and the publish memory
 * `last_pub`, each updated in place by the polling code. The MQTT client is
 * outside the model; what the bridge hands to it is appended to `outbox`.
 */
module Bridges {
  import opened Wrappers
  import opened Text
  import opened Topics
  import opened Metrics
  import opened Scanner
  import opened Publisher

  class Bridge {
    const prefix: string
    const precision: int
    var rates: map<string, RateState>
    var state: map<string, Value>
    var lastPub: map<string, Payload>
    var outbox: seq<(string, Payload)>

    /** The dictionaries the scan works on. */
    function Current(): Snapshot
      reads this
    {
      Snapshot(rates, state)
    }

    /** The prefix `<discovery>/sensor/<sanitised host:port>/<object id>` and empty dictionaries. */
    constructor (discovery: string, host: string, port: int, objectId: string, precision: int)
      ensures prefix == Prefix(discovery, host, port, objectId) && this.precision == precision
      ensures rates == map[] && state == map[] && lastPub == map[] && outbox == []
    {
      prefix := Prefix(discovery, host, port, objectId);
      this.precision := precision;
      rates := map[];
      state := map[];
      lastPub := map[];
      outbox := [];
    }

    /** `update_rate(name, ts, value)`. */
    method UpdateRate(name: string, ts: real, value: int)
      modifies this`rates, this`state
      ensures Current() == ApplyRate(old(Current()), name, ts, value, precision)
    {
      var r := if name in rates then rates[name] else RateState(ts, value, None);
      rates := rates[name := r];
      if r.ts >= ts {
        r := r.(rate := None);
      } else {
        var diff := value - r.lv;
        if diff < 0 {
          diff := diff + 4294967296;
        }
        var rate := diff as real / (ts - r.ts);
        r := r.(rate := Some(rate));
        state := state[RateKey(name) := Number(Round(rate, precision))];
      }
      r := r.(ts := ts, lv := value);
      rates := rates[name := r];
    }

    /** The first `if` of a scan iteration, on the line after `nas0`: the link state from the first token. */
    method ReadLinkState(line: string) returns (err: Option<ScanError>)
      modifies this`state
      ensures StateToken(line).Success? ==> err == None && state == old(state)["state" := Word(StateToken(line).value)]
      ensures StateToken(line).Failure? ==> err == Some(StateToken(line).error) && state == old(state)
    {
      var token := StateToken(line);
      if token.Failure? {
        return Some(token.error);
      }
      state := state["state" := Word(token.value)];
      err := None;
    }

    /** The second `if`: both counters of an `RX bytes` line, each fed to `update_rate`. */
    method ReadCounters(parts: seq<string>, now: real) returns (err: Option<ScanError>)
      modifies this`rates, this`state
      ensures Current() == Perform(old(Current()), CounterActions(parts), now, precision)
      ensures err == FirstError(CounterActions(parts))
    {
      ghost var acts := CounterActions(parts);
      var rx := CounterField(parts, 1);
      if rx.Failure? {
        return Some(rx.error);
      }
      UpdateRate("rx", now, rx.value);
      ghost var s1 := Current();
      var tx := CounterField(parts, 5);
      if tx.Failure? {
        assert acts[1..] == [Raise(tx.error)];
        assert Perform(s1, acts[1..], now, precision) == s1;
        return Some(tx.error);
      }
      UpdateRate("tx", now, tx.value);
      assert acts[1..] == [Sample("tx", tx.value)] && acts[1..][1..] == [];
      assert Perform(s1, acts[1..], now, precision) == Current();
      err := None;
    }

    /**
     * One iteration of the scan loop of `query_ifconfig`, from the flags
     * `haveInterface` and `nextLine`: the effects of `LineStep` applied in
     * place, the exception that ends the scan, and otherwise the new flags.
     */
    method ScanLine(line: string, haveInterface: bool, nextLine: bool, now: real)
      returns (err: Option<ScanError>, haveInterface': bool, nextLine': bool)
      modifies this`rates, this`state
      ensures var o := LineStep(line, Flags(haveInterface, nextLine));
        && Current() == Perform(old(Current()), o.actions, now, precision)
        && err == FirstError(o.actions)
        && (err.None? ==> Flags(haveInterface', nextLine') == o.flags)
    {
      ghost var s0 := Current();
      ghost var f := Flags(haveInterface, nextLine);
      haveInterface', nextLine' := haveInterface, nextLine;
      err := None;
      if nextLine' {
        nextLine' := false;
        err := ReadLinkState(line);
      }
      ghost var s1, e1 := Current(), err;
      if err.None? {
        var counter := haveInterface' && IsCounterLine(line);
        if counter {
          haveInterface' := false;
          err := ReadCounters(Words(Strip(line)), now);
        }
        if IsInterfaceLine(line) {
          haveInterface' := true;
          nextLine' := true;
        }
      }
      StepComposes(line, f, s0, s1, Current(), e1, err, now, precision);
    }

    /**
     * The scan of `query_ifconfig` over the lines of the `ifconfig` output,
     * all read at time `now`: the metric store ends as the trace of the
     * lines prescribes, and the result is the exception that stopped the
     * scan, if any.
     */
    method ScanIfconfig(lines: seq<string>, now: real) returns (err: Option<ScanError>)
      modifies this`rates, this`state
      ensures Current() == Perform(old(Current()), Trace(lines, Flags(false, false)), now, precision)
      ensures err == FirstError(Trace(lines, Flags(false, false)))
    {
      var haveInterface, nextLine := false, false;
      var i := 0;
      while i < |lines|
        invariant 0 <= i <= |lines|
        invariant Perform(Current(), Trace(lines[i..], Flags(haveInterface, nextLine)), now, precision)
               == Perform(old(Current()), Trace(lines, Flags(false, false)), now, precision)
        invariant FirstError(Trace(lines[i..], Flags(haveInterface, nextLine))) == FirstError(Trace(lines, Flags(false, false)))
      {
        ghost var s := Current();
        ghost var f := Flags(haveInterface, nextLine);
        var e;
        e, haveInterface, nextLine := ScanLine(lines[i], haveInterface, nextLine, now);
        if e.Some? {
          ScanStops(lines, i, f);
          return e;
        }
        ScanContinues(s, lines, i, f, now, precision);
        i := i + 1;
      }
      assert lines[i..] == [];
      err := None;
    }

    /**
     * `update_sensor`: offers the link state and the attribute dictionary,
     * publishing (on `<prefix>/<key>`) and remembering each one that differs
     * from what was last published under its key.
     */
    method UpdateSensor()
      modifies this`lastPub, this`outbox
      ensures lastPub == Gate(old(lastPub), Outputs(state)).0
      ensures outbox == old(outbox) + Messages(prefix, Gate(old(lastPub), Outputs(state)).1)
    {
      var outs := Outputs(state);
      ghost var sent: seq<Output> := [];
      var i := 0;
      while i < |outs|
        invariant 0 <= i <= |outs|
        invariant Gate(lastPub, outs[i..]).0 == Gate(old(lastPub), outs).0
        invariant sent + Gate(lastPub, outs[i..]).1 == Gate(old(lastPub), outs).1
        invariant outbox == old(outbox) + Messages(prefix, sent)
      {
        var k, v := outs[i].0, outs[i].1;
        var last := if k in lastPub then lastPub[k] else Absent;
        assert outs[i..][0] == outs[i] && outs[i..][1..] == outs[i + 1..];
        if v != last {
          outbox := outbox + [(TopicOf(prefix, k), v)];
          lastPub := lastPub[k := v];
          assert sent + [outs[i]] + Gate(lastPub, outs[i + 1..]).1 == sent + ([outs[i]] + Gate(lastPub, outs[i + 1..]).1);
          sent := sent + [outs[i]];
        }
        i := i + 1;
      }
      assert outs[i..] == [];
      assert sent + [] == sent;
    }
  }
}

=== FILE: metrics.dfy ===
/**
 * The metric store and the rate calculator: per-counter memory
 * `{ts, lv, rate}` and the metric map that the publisher reads.
 */
module Metrics {
  import opened Wrappers

  /** A metric value: the link-state word, or a rounded rate. */
  datatype Value = Word(text: string) | Number(x: real)

  /** The memory kept for one counter: last timestamp, last value, last rate (None when there is none). */
  datatype RateState = RateState(ts: real, lv: int, rate: Option<real>)

  /** The bridge's two in-place dictionaries, `rates` and `state`, as one value. */
  datatype Snapshot = Snapshot(rates: map<string, RateState>, state: map<string, Value>)

  /** The device counters wrap at 2^32. */
  const Wrap: int := 4294967296

  /**
   * Byte difference between two readings of a 32-bit counter, corrected for
   * one wrap: for 32-bit readings it is subtraction modulo 2^32, and a
   * counter that did not decrease gives the plain difference.
   */
  function CounterDelta(value: int, last: int): (d: int)
    ensures 0 <= value < Wrap && 0 <= last < Wrap ==> 0 <= d < Wrap && d == (value - last) % Wrap
    ensures value >= last ==> d == value - last
  {
    var diff := value - last;
    if diff < 0 then diff + Wrap else diff
  }

  function Pow10(n: nat): (r: nat)
    ensures r >= 1
  {
    if n == 0 then 1 else 10 * Pow10(n - 1)
  }

  /** The integer nearest to `y`, ties to the even one. */
  function RoundHalfEven(y: real): int
  {
    var f := y.Floor;
    var frac := y - f as real;
    if frac < 0.5 then f
    else if frac > 0.5 then f + 1
    else if f % 2 == 0 then f
    else f + 1
  }

  /** The nearest integer is at most half away, never negative for a non-negative input, and even on a tie. */
  lemma RoundHalfEvenIsNearest(y: real)
    ensures var r := RoundHalfEven(y);
      && y - 0.5 <= r as real <= y + 0.5
      && (y >= 0.0 ==> r >= 0)
      && ((r as real - y == 0.5 || y - r as real == 0.5) ==> r % 2 == 0)
  {
  }

  /** `x` rounded to the nearest multiple of `1 / scale`, ties to even. */
  function RoundToScale(x: real, scale: real): real
    requires scale > 0.0
  {
    RoundHalfEven(x * scale) as real / scale
  }

  /** `round(x, precision)` on exact reals: the nearest multiple of 10^-precision, ties to even. */
  function Round(x: real, precision: int): real
  {
    if precision >= 0 then RoundToScale(x, Pow10(precision) as real)
    else RoundHalfEven(x / Pow10(-precision) as real) as real * Pow10(-precision) as real
  }

  /** Rounding a non-negative number gives a non-negative number within half a unit of the last kept digit. */
  lemma RoundToScaleIsClose(x: real, scale: real)
    requires scale >= 1.0
    ensures x >= 0.0 ==> RoundToScale(x, scale) >= 0.0
    ensures -0.5 / scale <= RoundToScale(x, scale) - x <= 0.5 / scale
  {
    var y := x * scale;
    var n := RoundHalfEven(y) as real;
    assert RoundToScale(x, scale) == n / scale;
    RoundHalfEvenIsNearest(y);
    Rescale(x, scale);
    ScaleBack(n, y, scale);
  }

  /** The same for `round(rate, precision)` with a non-negative precision. */
  lemma RoundIsClose(x: real, precision: nat)
    ensures x >= 0.0 ==> Round(x, precision) >= 0.0
    ensures -0.5 / Pow10(precision) as real <= Round(x, precision) - x <= 0.5 / Pow10(precision) as real
  {
    RoundToScaleIsClose(x, Pow10(precision) as real);
  }

  lemma Rescale(x: real, p: real)
    requires p >= 1.0
    ensures (x * p) / p == x
    ensures x >= 0.0 ==> x * p >= 0.0
  {
  }

  /** Dividing by a positive scale keeps a rounding error's sign and bound. */
  lemma ScaleBack(n: real, y: real, p: real)
    requires p >= 1.0 && y - 0.5 <= n <= y + 0.5
    ensures y >= 0.0 ==> n >= -0.5 && (n >= 0.0 ==> n / p >= 0.0)
    ensures -0.5 / p <= n / p - y / p <= 0.5 / p
  {
    assert n / p - y / p == (n - y) / p;
  }

  /** The name of the metric a counter's rate is stored under: `'{}_rate'.format(name)`. */
  function RateKey(name: string): (k: string)
    ensures |k| == |name| + 5 && k[..|name|] == name
  {
    name + "_rate"
  }

  /** Different counters store their rates under different keys, so `rx_rate` never overwrites `tx_rate`. */
  lemma RateKeyInjective(a: string, b: string)
    requires RateKey(a) == RateKey(b)
    ensures a == b
  {
    assert a == RateKey(a)[..|a|];
  }

  /** `rates.setdefault(name, {ts, lv, rate: None})`: the stored memory, or a fresh one made from this sample. */
  function Baseline(rates: map<string, RateState>, name: string, ts: real, value: int): RateState {
    if name in rates then rates[name] else RateState(ts, value, None)
  }

  /** The counter memory after a sample: the rate when time advanced, and always the new baseline. */
  function NextRate(prev: RateState, ts: real, value: int): (r: RateState)
    ensures r.ts == ts && r.lv == value
    ensures r.rate.None? <==> prev.ts >= ts
    ensures r.rate.Some? ==> r.rate.value * (ts - prev.ts) == CounterDelta(value, prev.lv) as real
    ensures r.rate.Some? && 0 <= value < Wrap && 0 <= prev.lv < Wrap ==> r.rate.value >= 0.0
  {
    if prev.ts >= ts then RateState(ts, value, None)
    else
      var d := CounterDelta(value, prev.lv) as real;
      var elapsed := ts - prev.ts;
      assert (d / elapsed) * elapsed == d;
      if d >= 0.0 then
        QuotientNonNegative(d, elapsed);
        RateState(ts, value, Some(d / elapsed))
      else RateState(ts, value, Some(d / elapsed))
  }

  /** `update_rate(name, ts, value)` on the two dictionaries. */
  function ApplyRate(s: Snapshot, name: string, ts: real, value: int, precision: int): Snapshot {
    var r := NextRate(Baseline(s.rates, name, ts, value), ts, value);
    var state := if r.rate.Some? then s.state[RateKey(name) := Number(Round(r.rate.value, precision))] else s.state;
    Snapshot(s.rates[name := r], state)
  }

  /** Whatever the branch, the counter's baseline becomes this sample and no other counter's memory changes. */
  lemma BaselineReset(s: Snapshot, name: string, ts: real, value: int, precision: int)
    ensures var s' := ApplyRate(s, name, ts, value, precision);
      && name in s'.rates && s'.rates[name].ts == ts && s'.rates[name].lv == value
      && s'.rates.Keys == s.rates.Keys + {name}
      && (forall n :: n in s.rates && n != name ==> s'.rates[n] == s.rates[n])
  {
  }

  /** The first sample of a counter only records it: no rate, and the metric map is untouched. */
  lemma FirstSample(s: Snapshot, name: string, ts: real, value: int, precision: int)
    requires name !in s.rates
    ensures var s' := ApplyRate(s, name, ts, value, precision);
      && s'.rates[name] == RateState(ts, value, None)
      && s'.state == s.state
  {
  }

  /** A timestamp that did not advance clears the rate but leaves any earlier published rate in the metric map. */
  lemma StaleSample(s: Snapshot, name: string, ts: real, value: int, precision: int)
    requires name in s.rates && ts <= s.rates[name].ts
    ensures var s' := ApplyRate(s, name, ts, value, precision);
      && s'.rates[name] == RateState(ts, value, None)
      && s'.state == s.state
  {
  }

  /**
   * A later sample of a 32-bit counter yields a non-negative rate: the
   * wrap-corrected byte difference, a number in [0, 2^32) congruent to the
   * raw difference modulo 2^32, over the elapsed time; only the counter's
   * rate key in the metric map changes, to that rate rounded.
   */
  lemma FreshSample(s: Snapshot, name: string, ts: real, value: int, precision: int)
    requires name in s.rates && s.rates[name].ts < ts
    requires 0 <= value < Wrap && 0 <= s.rates[name].lv < Wrap
    ensures var s' := ApplyRate(s, name, ts, value, precision);
      var last := s.rates[name];
      var d := (value - last.lv) % Wrap;
      && 0 <= d < Wrap
      && s'.rates[name] == RateState(ts, value, Some(d as real / (ts - last.ts)))
      && d as real / (ts - last.ts) >= 0.0
      && s'.state.Keys == s.state.Keys + {RateKey(name)}
      && s'.state[RateKey(name)] == Number(Round(d as real / (ts - last.ts), precision))
      && (forall k :: k in s.state && k != RateKey(name) ==> s'.state[k] == s.state[k])
  {
    var last := s.rates[name];
    var d := CounterDelta(value, last.lv);
    var r := NextRate(Baseline(s.rates, name, ts, value), ts, value);
    assert r == RateState(ts, value, Some(d as real / (ts - last.ts)));
    QuotientNonNegative(d as real, ts - last.ts);
  }

  lemma QuotientNonNegative(a: real, b: real)
    requires a >= 0.0 && b > 0.0
    ensures a / b >= 0.0
  {
    assert (a / b) * b == a;
  }

  /** The wrap-around example: 4294967290 then 5, one second apart, is 11 bytes per second. */
  lemma WrapExample(s: Snapshot, precision: int)
    requires "rx" in s.rates && s.rates["rx"].ts == 100.0 && s.rates["rx"].lv == 4294967290
    ensures ApplyRate(s, "rx", 101.0, 5, precision).rates["rx"].rate == Some(11.0)
  {
  }

  /** A sequence of samples of one counter fed to the calculator in order. */
  function Feed(s: Snapshot, name: string, samples: seq<(real, int)>, precision: int): Snapshot
    decreases |samples|
  {
    if samples == [] then s
    else Feed(ApplyRate(s, name, samples[0].0, samples[0].1, precision), name, samples[1..], precision)
  }

  /** Feeding a sequence ends with its last sample as the baseline. */
  lemma {:induction false} FeedBaseline(s: Snapshot, name: string, samples: seq<(real, int)>, precision: int)
    requires samples != []
    ensures var s' := Feed(s, name, samples, precision);
      name in s'.rates && s'.rates[name].ts == samples[|samples| - 1].0 && s'.rates[name].lv == samples[|samples| - 1].1
    decreases |samples|
  {
    var s1 := ApplyRate(s, name, samples[0].0, samples[0].1, precision);
    if |samples| > 1 {
      FeedBaseline(s1, name, samples[1..], precision);
    }
  }

  lemma {:induction false} FeedSplit(s: Snapshot, name: string, samples: seq<(real, int)>, n: nat, precision: int)
    requires n < |samples|
    ensures Feed(s, name, samples[..n + 1], precision)
         == ApplyRate(Feed(s, name, samples[..n], precision), name, samples[n].0, samples[n].1, precision)
    decreases n
  {
    if n > 0 {
      var s1 := ApplyRate(s, name, samples[0].0, samples[0].1, precision);
      FeedSplit(s1, name, samples[1..], n - 1, precision);
      assert samples[..n + 1][1..] == samples[1..][..n];
      assert samples[..n][1..] == samples[1..][..n - 1];
    }
  }

  /**
   * With strictly increasing timestamps and non-decreasing values (no wrap),
   * each sample after the first has the exact rate
   * (v_n - v_{n-1}) / (t_n - t_{n-1}).
   */
  lemma MonotoneRates(s: Snapshot, name: string, samples: seq<(real, int)>, n: nat, precision: int)
    requires 0 < n < |samples|
    requires samples[n - 1].0 < samples[n].0 && samples[n - 1].1 <= samples[n].1
    ensures name in Feed(s, name, samples[..n + 1], precision).rates
    ensures Feed(s, name, samples[..n + 1], precision).rates[name].rate
         == Some((samples[n].1 - samples[n - 1].1) as real / (samples[n].0 - samples[n - 1].0))
  {
    FeedSplit(s, name, samples, n, precision);
    FeedBaseline(s, name, samples[..n], precision);
  }
}

=== FILE: publisher.dfy ===
/**
 * What `update_sensor` sends: the link state and the attribute dictionary,
 * each published only when it differs from what was last published under
 * its key. A payload stands for the value handed to the MQTT client:
 * `Absent` for Python's `None`, `Scalar` for the link-state string and
 * `Attributes` for the dictionary that `json.dumps` renders.
 */
module Publisher {
  import opened Metrics
  import opened Topics

  datatype Payload = Absent | Scalar(value: Value) | Attributes(fields: map<string, Value>)

  /** A key and the payload offered for it. */
  type Output = (string, Payload)

  /** `state.get('state')`. */
  function StatePayload(state: map<string, Value>): (p: Payload)
    ensures p == Absent <==> "state" !in state
    ensures "state" in state ==> p == Scalar(state["state"])
  {
    if "state" in state then Scalar(state["state"]) else Absent
  }

  /** `{k: v for (k, v) in state.items() if not k == 'state'}`. */
  function AttributesOf(state: map<string, Value>): (m: map<string, Value>)
    ensures m.Keys == state.Keys - {"state"}
    ensures forall k :: k in m ==> m[k] == state[k]
  {
    map k | k in state && k != "state" :: state[k]
  }

  /** The `pub` dictionary, in its insertion order. */
  function Outputs(state: map<string, Value>): (outs: seq<Output>)
    ensures |outs| == 2
    ensures outs[0] == ("state", StatePayload(state))
    ensures outs[1] == ("attributes", Attributes(AttributesOf(state)))
  {
    [("state", StatePayload(state)), ("attributes", Attributes(AttributesOf(state)))]
  }

  /** The MQTT messages for `outs`: each payload on the topic `<prefix>/<key>`. */
  function Messages(prefix: string, outs: seq<Output>): (m: seq<(string, Payload)>)
    ensures |m| == |outs|
    ensures forall j :: 0 <= j < |outs| ==> m[j] == (TopicOf(prefix, outs[j].0), outs[j].1)
    decreases |outs|
  {
    if outs == [] then [] else [(TopicOf(prefix, outs[0].0), outs[0].1)] + Messages(prefix, outs[1..])
  }

  /** `last_pub.get(k, None)`. */
  function LastSent(lastPub: map<string, Payload>, k: string): Payload {
    if k in lastPub then lastPub[k] else Absent
  }

  predicate DistinctKeys(outs: seq<Output>) {
    forall i, j :: 0 <= i < j < |outs| ==> outs[i].0 != outs[j].0
  }

  /**
   * The loop of `update_sensor` over `outs`: each output that differs from
   * what was last sent under its key is sent and remembered. The result is
   * the memory afterwards and the outputs sent, in order.
   */
  function Gate(lastPub: map<string, Payload>, outs: seq<Output>): (r: (map<string, Payload>, seq<Output>))
    ensures |r.1| <= |outs|
    ensures forall o :: o in r.1 ==> o in outs
    decreases |outs|
  {
    if outs == [] then (lastPub, [])
    else
      var k, v := outs[0].0, outs[0].1;
      if v != LastSent(lastPub, k) then
        var rest := Gate(lastPub[k := v], outs[1..]);
        (rest.0, [outs[0]] + rest.1)
      else Gate(lastPub, outs[1..])
  }

  /** Reference definition: the outputs whose payload differs from the one remembered before the call. */
  function Changed(lastPub: map<string, Payload>, outs: seq<Output>): (c: seq<Output>)
    ensures forall o :: o in c <==> o in outs && o.1 != LastSent(lastPub, o.0)
    decreases |outs|
  {
    if outs == [] then []
    else if outs[0].1 != LastSent(lastPub, outs[0].0) then [outs[0]] + Changed(lastPub, outs[1..])
    else Changed(lastPub, outs[1..])
  }

  /** With distinct keys, remembering one key does not change what the others compare against. */
  lemma {:induction false} ChangedIgnoresOtherKeys(lastPub: map<string, Payload>, k: string, v: Payload, outs: seq<Output>)
    requires forall i :: 0 <= i < |outs| ==> outs[i].0 != k
    ensures Changed(lastPub[k := v], outs) == Changed(lastPub, outs)
    decreases |outs|
  {
    if outs != [] {
      assert LastSent(lastPub[k := v], outs[0].0) == LastSent(lastPub, outs[0].0);
      ChangedIgnoresOtherKeys(lastPub, k, v, outs[1..]);
    }
  }

  /** A publish happens exactly for the outputs that differ from what was last published under their key. */
  lemma {:induction false} GateSendsChanged(lastPub: map<string, Payload>, outs: seq<Output>)
    requires DistinctKeys(outs)
    ensures Gate(lastPub, outs).1 == Changed(lastPub, outs)
    decreases |outs|
  {
    if outs != [] {
      var k, v := outs[0].0, outs[0].1;
      assert DistinctKeys(outs[1..]) by {
        forall i, j | 0 <= i < j < |outs[1..]| ensures outs[1..][i].0 != outs[1..][j].0 {
          assert outs[1..][i] == outs[i + 1] && outs[1..][j] == outs[j + 1];
        }
      }
      assert forall i :: 0 <= i < |outs[1..]| ==> outs[1..][i].0 != k by {
        forall i | 0 <= i < |outs[1..]| ensures outs[1..][i].0 != k {
          assert outs[1..][i] == outs[i + 1];
        }
      }
      if v != LastSent(lastPub, k) {
        GateSendsChanged(lastPub[k := v], outs[1..]);
        ChangedIgnoresOtherKeys(lastPub, k, v, outs[1..]);
      } else {
        GateSendsChanged(lastPub, outs[1..]);
      }
    }
  }

  /**
   * Afterwards `last_pub[k]` is the payload offered for `k` (whether it was
   * sent or was already equal), and keys not offered keep their memory.
   */
  lemma {:induction false} GateRecords(lastPub: map<string, Payload>, outs: seq<Output>)
    requires DistinctKeys(outs)
    ensures forall i :: 0 <= i < |outs| ==> LastSent(Gate(lastPub, outs).0, outs[i].0) == outs[i].1
    ensures forall k :: (forall i :: 0 <= i < |outs| ==> outs[i].0 != k) ==> LastSent(Gate(lastPub, outs).0, k) == LastSent(lastPub, k)
    decreases |outs|
  {
    if outs != [] {
      var k, v := outs[0].0, outs[0].1;
      var tail := outs[1..];
      assert DistinctKeys(tail) by {
        forall i, j | 0 <= i < j < |tail| ensures tail[i].0 != tail[j].0 {
          assert tail[i] == outs[i + 1] && tail[j] == outs[j + 1];
        }
      }
      var lp := if v != LastSent(lastPub, k) then lastPub[k := v] else lastPub;
      assert Gate(lastPub, outs).0 == Gate(lp, tail).0;
      assert LastSent(lp, k) == v;
      GateRecords(lp, tail);
      forall i | 0 <= i < |outs|
        ensures LastSent(Gate(lastPub, outs).0, outs[i].0) == outs[i].1
      {
        if i == 0 {
          assert forall j :: 0 <= j < |tail| ==> tail[j].0 != k by {
            forall j | 0 <= j < |tail| ensures tail[j].0 != k {
              assert tail[j] == outs[j + 1];
            }
          }
        } else {
          assert outs[i] == tail[i - 1];
        }
      }
      forall k' | forall i :: 0 <= i < |outs| ==> outs[i].0 != k'
        ensures LastSent(Gate(lastPub, outs).0, k') == LastSent(lastPub, k')
      {
        assert outs[0].0 != k';
        assert forall j :: 0 <= j < |tail| ==> tail[j].0 != k' by {
          forall j | 0 <= j < |tail| ensures tail[j].0 != k' {
            assert tail[j] == outs[j + 1];
          }
        }
      }
    }
  }

  /** Nothing is sent for outputs that all match what was last published. */
  lemma {:induction false} GateQuiet(lastPub: map<string, Payload>, outs: seq<Output>)
    requires forall i :: 0 <= i < |outs| ==> outs[i].1 == LastSent(lastPub, outs[i].0)
    ensures Gate(lastPub, outs) == (lastPub, [])
    decreases |outs|
  {
    if outs != [] {
      assert forall i :: 0 <= i < |outs[1..]| ==> outs[1..][i].1 == LastSent(lastPub, outs[1..][i].0) by {
        forall i | 0 <= i < |outs[1..]| ensures outs[1..][i].1 == LastSent(lastPub, outs[1..][i].0) {
          assert outs[1..][i] == outs[i + 1];
        }
      }
      GateQuiet(lastPub, outs[1..]);
    }
  }

  /** Publishing twice in a row with the metric map unchanged sends nothing the second time. */
  lemma SecondPublishSilent(lastPub: map<string, Payload>, state: map<string, Value>)
    ensures var first := Gate(lastPub, Outputs(state));
      Gate(first.0, Outputs(state)) == (first.0, [])
  {
    var outs := Outputs(state);
    assert DistinctKeys(outs);
    GateRecords(lastPub, outs);
    GateQuiet(Gate(lastPub, outs).0, outs);
  }

  /**
   * The attribute dictionary is always published on the first call (it is
   * never `None`), while the link state is published only once a `nas0`
   * block has set it.
   */
  lemma FirstPublish(state: map<string, Value>)
    ensures var sent := Gate(map[], Outputs(state)).1;
      && ("attributes", Attributes(AttributesOf(state))) in sent
      && (("state", StatePayload(state)) in sent <==> "state" in state)
  {
    var outs := Outputs(state);
    assert DistinctKeys(outs);
    GateSendsChanged(map[], outs);
  }
}

=== FILE: scanner.dfy ===
/**
 * The scan of `ifconfig` output. The source walks the lines once with two
 * flags: `haveInterface` (a `nas0` line was seen and its byte counters are
 * still to come) and `nextLine` (the line just before was the `nas0` line).
 * Here the scan is described as the trace of effects it has, in order:
 * setting the link-state word, feeding a counter sample to the rate
 * calculator, or raising; `Perform` applies a trace to the metric store.
 */
module Scanner {
  import opened Wrappers
  import opened Text
  import opened Metrics

  /** The Python exceptions the scan can raise on malformed output. */
  datatype ScanError = IndexError | ValueError

  datatype Action = SetState(token: string) | Sample(counter: string, value: int) | Raise(error: ScanError)

  datatype Flags = Flags(haveInterface: bool, nextLine: bool)

  datatype LineOutcome = LineOutcome(actions: seq<Action>, flags: Flags)

  /** `line.startswith(b'nas0')`, on the line as it is. */
  predicate IsInterfaceLine(line: string) {
    StartsWith(line, "nas0")
  }

  /** `line.strip().startswith(b'RX bytes')`. */
  predicate IsCounterLine(line: string) {
    StartsWith(Strip(line), "RX bytes")
  }

  /** `line.strip().split()[0]`: the first whitespace-separated token, or the `IndexError` of an empty line. */
  function StateToken(line: string): (r: Result<string, ScanError>)
    ensures r.Success? ==> r.value != [] && NoSpace(r.value)
    ensures r.Failure? ==> r.error == IndexError
  {
    var ws := Words(Strip(line));
    if ws == [] then Failure(IndexError) else Success(ws[0])
  }

  /** `int(parts[k].split(b':')[1])`, or the exception it raises. */
  function CounterField(parts: seq<string>, k: nat): (r: Result<int, ScanError>)
    ensures k >= |parts| ==> r == Failure(IndexError)
    ensures k < |parts| && |SplitOn(parts[k], ':')| < 2 ==> r == Failure(IndexError)
    ensures r.Success? <==> k < |parts| && |SplitOn(parts[k], ':')| >= 2 && ParseInt(SplitOn(parts[k], ':')[1]).Some?
    ensures r.Success? ==> r.value == ParseInt(SplitOn(parts[k], ':')[1]).value
    ensures k < |parts| && |SplitOn(parts[k], ':')| >= 2 && ParseInt(SplitOn(parts[k], ':')[1]).None? ==> r == Failure(ValueError)
  {
    if k >= |parts| then Failure(IndexError)
    else
      var pieces := SplitOn(parts[k], ':');
      if |pieces| < 2 then Failure(IndexError)
      else match ParseInt(pieces[1])
        case Some(n) => Success(n)
        case None => Failure(ValueError)
  }

  /** `t` is the first word of `line`: it starts after leading whitespace and ends at whitespace or the end. */
  predicate FirstWordAt(line: string, k: nat, t: string) {
    && k + |t| <= |line| && AllSpace(line[..k]) && line[k..k + |t|] == t
    && (k + |t| == |line| || IsSpace(line[k + |t|]))
  }

  /** The `IndexError` of the link-state token happens exactly on a blank line. */
  lemma StateTokenBlank(line: string)
    ensures StateToken(line).Failure? <==> AllSpace(line)
  {
    var u := TrimStart(line);
    var p := |line| - |u|;
    var v := TrimEnd(u);
    assert Strip(line) == v;
    assert TrimStart(v) == v;
    if v != [] {
      assert line[p] == v[0];
    }
  }

  /** The link-state token is the line's first whitespace-separated word. */
  lemma StateTokenIsFirstWord(line: string)
    ensures StateToken(line).Success? ==> exists k :: FirstWordAt(line, k, StateToken(line).value)
  {
    var u := TrimStart(line);
    var v := TrimEnd(u);
    assert Strip(line) == v;
    if v != [] {
      FirstWordOf(v);
      FirstWordInside(line, u, v, WordLength(v));
    }
  }

  /** A trimmed string's first word runs up to its first whitespace. */
  lemma FirstWordOf(v: string)
    requires v != [] && !IsSpace(v[0])
    ensures WordLength(v) >= 1
    ensures Words(v) == [v[..WordLength(v)]] + Words(v[WordLength(v)..])
  {
    assert TrimStart(v) == v;
  }

  /**
   * A word at the front of the trimmed line is a first word of the line:
   * `u` is the line without its leading whitespace and `v` is `u` without
   * its trailing whitespace.
   */
  lemma FirstWordInside(line: string, u: string, v: string, n: nat)
    requires |u| <= |line| && u == line[|line| - |u|..] && forall i :: 0 <= i < |line| - |u| ==> IsSpace(line[i])
    requires |v| <= |u| && v == u[..|v|] && forall i :: |v| <= i < |u| ==> IsSpace(u[i])
    requires 1 <= n <= |v| && NoSpace(v[..n]) && (n < |v| ==> IsSpace(v[n]))
    ensures FirstWordAt(line, |line| - |u|, v[..n])
  {
    var p := |line| - |u|;
    assert line[p..p + n] == v[..n];
    if p + n < |line| {
      assert line[p + n] == u[n];
    }
  }

  /** A counter line is never blank, so its first `if` cannot raise. */
  lemma CounterLineToken(line: string)
    requires IsCounterLine(line)
    ensures StateToken(line).Success?
  {
    var s := Strip(line);
    assert |s| >= 8;
    assert TrimStart(s) == s;
  }

  predicate Raises(acts: seq<Action>) {
    exists i :: 0 <= i < |acts| && acts[i].Raise?
  }

  /** The first `if` of an iteration: on the line after `nas0`, the link-state word or the exception. */
  function StateActions(line: string, nextLine: bool): (acts: seq<Action>)
    ensures forall t :: SetState(t) in acts <==> nextLine && StateToken(line) == Success(t)
    ensures forall n, v :: Sample(n, v) !in acts
    ensures Raises(acts) <==> nextLine && StateToken(line).Failure?
    ensures !Raises(acts) ==> |acts| <= 1
  {
    if !nextLine then []
    else match StateToken(line)
      case Success(t) => [SetState(t)]
      case Failure(e) => assert [Raise(e)][0].Raise?; [Raise(e)]
  }

  /** The two `update_rate` calls of a counter line, or the exception that cuts them short. */
  function CounterActions(parts: seq<string>): (acts: seq<Action>)
    ensures 1 <= |acts| <= 2
    ensures forall t :: SetState(t) !in acts
    ensures forall n, v :: Sample(n, v) in acts ==>
      || (n == "rx" && CounterField(parts, 1) == Success(v))
      || (n == "tx" && CounterField(parts, 5) == Success(v))
    ensures !Raises(acts) <==> CounterField(parts, 1).Success? && CounterField(parts, 5).Success?
    ensures CounterField(parts, 1).Failure? ==> acts == [Raise(CounterField(parts, 1).error)]
    ensures CounterField(parts, 1).Success? ==> |acts| == 2 && acts[0] == Sample("rx", CounterField(parts, 1).value)
    ensures CounterField(parts, 1).Success? && CounterField(parts, 5).Success? ==>
      acts[1] == Sample("tx", CounterField(parts, 5).value)
    ensures CounterField(parts, 1).Success? && CounterField(parts, 5).Failure? ==>
      acts[1] == Raise(CounterField(parts, 5).error)
  {
    match CounterField(parts, 1)
    case Failure(e) => assert [Raise(e)][0].Raise?; [Raise(e)]
    case Success(rx) =>
      match CounterField(parts, 5)
      case Failure(e) => assert [Sample("rx", rx), Raise(e)][1].Raise?; [Sample("rx", rx), Raise(e)]
      case Success(tx) => [Sample("rx", rx), Sample("tx", tx)]
  }

  /** One iteration of the loop over the lines: the three `if`s in order. */
  function LineStep(line: string, f: Flags): LineOutcome {
    var stateActs := StateActions(line, f.nextLine);
    if Raises(stateActs) then LineOutcome(stateActs, Flags(f.haveInterface, false))
    else
      var counter := f.haveInterface && IsCounterLine(line);
      var counterActs := if counter then CounterActions(Words(Strip(line))) else [];
      var have := if IsInterfaceLine(line) then true else f.haveInterface && !counter;
      LineOutcome(stateActs + counterActs, Flags(have, IsInterfaceLine(line)))
  }

  /** The effects of scanning `lines` from the flags `f`; the trace ends at the first raise. */
  function Trace(lines: seq<string>, f: Flags): (acts: seq<Action>)
    decreases |lines|
  {
    if lines == [] then []
    else
      var o := LineStep(lines[0], f);
      if Raises(o.actions) then o.actions else o.actions + Trace(lines[1..], o.flags)
  }

  /** The exception the scan ends with, if any. */
  function FirstError(acts: seq<Action>): (e: Option<ScanError>)
    ensures e.Some? <==> Raises(acts)
    ensures e.Some? ==> Raise(e.value) in acts
  {
    if acts == [] then None
    else if acts[0].Raise? then Some(acts[0].error)
    else FirstError(acts[1..])
  }

  /** The metric store after the effects `acts`, each applied in place at time `now`. */
  function Perform(s: Snapshot, acts: seq<Action>, now: real, precision: int): Snapshot
    decreases |acts|
  {
    if acts == [] then s
    else match acts[0]
      case SetState(t) => Perform(Snapshot(s.rates, s.state["state" := Word(t)]), acts[1..], now, precision)
      case Sample(n, v) => Perform(ApplyRate(s, n, now, v, precision), acts[1..], now, precision)
      case Raise(_) => s
  }

  /** Applying two traces in turn is applying their concatenation, when the first does not raise. */
  lemma {:induction false} PerformConcat(s: Snapshot, a: seq<Action>, b: seq<Action>, now: real, precision: int)
    requires !Raises(a)
    ensures Perform(s, a + b, now, precision) == Perform(Perform(s, a, now, precision), b, now, precision)
    decreases |a|
  {
    if a != [] {
      assert (a + b)[1..] == a[1..] + b;
      assert (a + b)[0] == a[0];
      assert !a[0].Raise?;
      assert !Raises(a[1..]) by {
        forall i | 0 <= i < |a[1..]| ensures !a[1..][i].Raise? { assert a[1..][i] == a[i + 1]; }
      }
      match a[0]
      case SetState(t) =>
        PerformConcat(Snapshot(s.rates, s.state["state" := Word(t)]), a[1..], b, now, precision);
      case Sample(n, v) =>
        PerformConcat(ApplyRate(s, n, now, v, precision), a[1..], b, now, precision);
    } else {
      assert a + b == b;
    }
  }

  /** The exception of a trace that starts with effects that do not raise is that of the rest. */
  lemma {:induction false} FirstErrorConcat(a: seq<Action>, b: seq<Action>)
    requires !Raises(a)
    ensures FirstError(a + b) == FirstError(b)
    decreases |a|
  {
    if a != [] {
      assert (a + b)[0] == a[0] && (a + b)[1..] == a[1..] + b;
      assert !a[0].Raise?;
      assert !Raises(a[1..]) by {
        forall i | 0 <= i < |a[1..]| ensures !a[1..][i].Raise? { assert a[1..][i] == a[i + 1]; }
      }
      FirstErrorConcat(a[1..], b);
    } else {
      assert a + b == b;
    }
  }

  /** A scan step that does not raise: the effects of the line, then those of the lines after it. */
  lemma ScanContinues(s: Snapshot, lines: seq<string>, i: nat, f: Flags, now: real, precision: int)
    requires i < |lines| && !Raises(LineStep(lines[i], f).actions)
    ensures var o := LineStep(lines[i], f);
      && Perform(Perform(s, o.actions, now, precision), Trace(lines[i + 1..], o.flags), now, precision)
         == Perform(s, Trace(lines[i..], f), now, precision)
      && FirstError(Trace(lines[i + 1..], o.flags)) == FirstError(Trace(lines[i..], f))
  {
    var o := LineStep(lines[i], f);
    assert lines[i..][0] == lines[i] && lines[i..][1..] == lines[i + 1..];
    TraceTail(lines[i..], f);
    PerformConcat(s, o.actions, Trace(lines[i + 1..], o.flags), now, precision);
    FirstErrorConcat(o.actions, Trace(lines[i + 1..], o.flags));
  }

  /** A scan step that raises ends the trace. */
  lemma ScanStops(lines: seq<string>, i: nat, f: Flags)
    requires i < |lines| && Raises(LineStep(lines[i], f).actions)
    ensures Trace(lines[i..], f) == LineStep(lines[i], f).actions
  {
    assert lines[i..][0] == lines[i];
  }

  /**
   * The effects of one iteration are those of its first `if` (the link
   * state: `s1`, `e1`) followed, when that did not raise and the line is a
   * counter line under an interface, by those of its second `if` (the
   * counters: `s2`, `e2`).
   */
  lemma StepComposes(line: string, f: Flags, s0: Snapshot, s1: Snapshot, s2: Snapshot,
                     e1: Option<ScanError>, e2: Option<ScanError>, now: real, precision: int)
    requires f.nextLine && StateToken(line).Success? ==>
      s1 == Snapshot(s0.rates, s0.state["state" := Word(StateToken(line).value)]) && e1 == None
    requires f.nextLine && StateToken(line).Failure? ==> s1 == s0 && e1 == Some(StateToken(line).error)
    requires !f.nextLine ==> s1 == s0 && e1 == None
    requires e1.None? && f.haveInterface && IsCounterLine(line) ==>
      s2 == Perform(s1, CounterActions(Words(Strip(line))), now, precision) && e2 == FirstError(CounterActions(Words(Strip(line))))
    requires e1.Some? || !(f.haveInterface && IsCounterLine(line)) ==> s2 == s1 && e2 == e1
    ensures s2 == Perform(s0, LineStep(line, f).actions, now, precision)
    ensures e2 == FirstError(LineStep(line, f).actions)
  {
    var st := StateActions(line, f.nextLine);
    assert s1 == Perform(s0, st, now, precision) && e1 == FirstError(st);
    if !Raises(st) {
      if f.haveInterface && IsCounterLine(line) {
        var ca := CounterActions(Words(Strip(line)));
        PerformConcat(s0, st, ca, now, precision);
        FirstErrorConcat(st, ca);
      } else {
        assert st + [] == st;
      }
    }
  }

  /** A trace stops at its raise: what follows is never applied. */
  lemma {:induction false} PerformStopsAtRaise(s: Snapshot, a: seq<Action>, b: seq<Action>, now: real, precision: int)
    requires Raises(a)
    ensures Perform(s, a + b, now, precision) == Perform(s, a, now, precision)
    ensures FirstError(a + b) == FirstError(a)
    decreases |a|
  {
    assert (a + b)[1..] == a[1..] + b;
    if !a[0].Raise? {
      assert (a + b)[0] == a[0];
      assert Raises(a[1..]) by {
        var i :| 0 <= i < |a| && a[i].Raise?;
        assert a[1..][i - 1] == a[i];
      }
      match a[0]
      case SetState(t) =>
        PerformStopsAtRaise(Snapshot(s.rates, s.state["state" := Word(t)]), a[1..], b, now, precision);
      case Sample(n, v) =>
        PerformStopsAtRaise(ApplyRate(s, n, now, v, precision), a[1..], b, now, precision);
    }
  }

  /** An iteration sets the link state exactly when the line before was a `nas0` line, to this line's first token. */
  lemma LineStepState(line: string, f: Flags, t: string)
    ensures SetState(t) in LineStep(line, f).actions <==> f.nextLine && StateToken(line) == Success(t)
  {
  }

  /** An iteration feeds counters only on a counter line while the interface flag is up, with the parsed fields. */
  lemma LineStepSamples(line: string, f: Flags, n: string, v: int)
    requires Sample(n, v) in LineStep(line, f).actions
    ensures f.haveInterface && IsCounterLine(line)
    ensures n == "rx" || n == "tx"
    ensures CounterField(Words(Strip(line)), if n == "rx" then 1 else 5) == Success(v)
  {
  }

  /** With both flags down an iteration has no effect; it only raises them on a `nas0` line. */
  lemma LineStepIdle(line: string)
    ensures LineStep(line, Flags(false, false)) == LineOutcome([], Flags(IsInterfaceLine(line), IsInterfaceLine(line)))
  {
  }

  /** After an iteration that did not raise, the flags are those of the source's three `if`s. */
  lemma LineStepFlags(line: string, f: Flags)
    requires !Raises(LineStep(line, f).actions)
    ensures LineStep(line, f).flags.nextLine == IsInterfaceLine(line)
    ensures LineStep(line, f).flags.haveInterface
         == (IsInterfaceLine(line) || (f.haveInterface && !IsCounterLine(line)))
  {
  }

  /** Without a `nas0` line the scan has no effect at all: the metric store is untouched and nothing raises. */
  lemma {:induction false} NoInterfaceNoEffect(lines: seq<string>, s: Snapshot, now: real, precision: int)
    requires forall i :: 0 <= i < |lines| ==> !IsInterfaceLine(lines[i])
    ensures Trace(lines, Flags(false, false)) == []
    ensures Perform(s, Trace(lines, Flags(false, false)), now, precision) == s
    ensures FirstError(Trace(lines, Flags(false, false))) == None
    decreases |lines|
  {
    if lines != [] {
      LineStepIdle(lines[0]);
      NoInterfaceNoEffect(lines[1..], s, now, precision);
    }
  }

  /**
   * Only the line right after a `nas0` line sets the link state, and it
   * sets it to its first token (or, with the flag already raised on entry,
   * the first line does).
   */
  lemma {:induction false} StateComesAfterInterface(lines: seq<string>, f: Flags, t: string)
    requires SetState(t) in Trace(lines, f)
    ensures || (f.nextLine && StateToken(lines[0]) == Success(t))
            || exists i :: 0 < i < |lines| && IsInterfaceLine(lines[i - 1]) && StateToken(lines[i]) == Success(t)
    decreases |lines|
  {
    var o := LineStep(lines[0], f);
    LineStepState(lines[0], f, t);
    if SetState(t) !in o.actions {
      assert !Raises(o.actions);
      LineStepFlags(lines[0], f);
      var rest := lines[1..];
      StateComesAfterInterface(rest, o.flags, t);
      if o.flags.nextLine && StateToken(rest[0]) == Success(t) {
        assert IsInterfaceLine(lines[0]) && StateToken(lines[1]) == Success(t);
      } else {
        var i :| 0 < i < |rest| && IsInterfaceLine(rest[i - 1]) && StateToken(rest[i]) == Success(t);
        assert IsInterfaceLine(lines[i]) && StateToken(lines[i + 1]) == Success(t);
      }
    }
  }

  /** The trace of the remaining lines, when the first line did not raise. */
  lemma {:induction false} TraceTail(lines: seq<string>, f: Flags)
    requires lines != [] && !Raises(LineStep(lines[0], f).actions)
    ensures Trace(lines, f) == LineStep(lines[0], f).actions + Trace(lines[1..], LineStep(lines[0], f).flags)
    ensures !Raises(Trace(lines, f)) ==> !Raises(Trace(lines[1..], LineStep(lines[0], f).flags))
  {
    var o := LineStep(lines[0], f);
    var r := Trace(lines[1..], o.flags);
    if Raises(r) {
      var k :| 0 <= k < |r| && r[k].Raise?;
      assert Trace(lines, f)[|o.actions| + k] == r[k];
    }
  }

  /** The flags after scanning `lines` from `f`, step by step. */
  function FlagsAfter(lines: seq<string>, f: Flags): Flags
    decreases |lines|
  {
    if lines == [] then f else FlagsAfter(lines[1..], LineStep(lines[0], f).flags)
  }

  /** A trace raises exactly when one of its parts does. */
  lemma RaisesConcat(a: seq<Action>, b: seq<Action>)
    ensures Raises(a + b) <==> Raises(a) || Raises(b)
  {
    if Raises(a + b) {
      var i :| 0 <= i < |a + b| && (a + b)[i].Raise?;
      if i < |a| {
        assert a[i] == (a + b)[i];
      } else {
        assert b[i - |a|] == (a + b)[i];
      }
    }
    if Raises(a) {
      var i :| 0 <= i < |a| && a[i].Raise?;
      assert (a + b)[i] == a[i];
    }
    if Raises(b) {
      var i :| 0 <= i < |b| && b[i].Raise?;
      assert (a + b)[|a| + i] == b[i];
    }
  }

  lemma ConcatAssoc(a: seq<Action>, b: seq<Action>, c: seq<Action>)
    ensures a + (b + c) == (a + b) + c
  {
  }

  /** The effects of the first line, then, unless it raised, those of the rest. */
  lemma TraceHead(lines: seq<string>, f: Flags)
    requires lines != []
    ensures var o := LineStep(lines[0], f);
      Trace(lines, f) == o.actions + (if Raises(o.actions) then [] else Trace(lines[1..], o.flags))
  {
    var o := LineStep(lines[0], f);
    assert o.actions + [] == o.actions;
  }

  lemma {:induction false} FlagsAfterAppend(xs: seq<string>, ys: seq<string>, f: Flags)
    ensures FlagsAfter(xs + ys, f) == FlagsAfter(ys, FlagsAfter(xs, f))
    decreases |xs|
  {
    if xs == [] {
      assert xs + ys == ys;
    } else {
      assert (xs + ys)[0] == xs[0] && (xs + ys)[1..] == xs[1..] + ys;
      FlagsAfterAppend(xs[1..], ys, LineStep(xs[0], f).flags);
    }
  }

  /** Scanning `xs + ys` is scanning `xs` and then, unless that raised, `ys` from the flags `xs` left. */
  lemma {:induction false} TraceAppend(xs: seq<string>, ys: seq<string>, f: Flags)
    ensures Trace(xs + ys, f)
         == if Raises(Trace(xs, f)) then Trace(xs, f) else Trace(xs, f) + Trace(ys, FlagsAfter(xs, f))
    decreases |xs|
  {
    if xs == [] {
      assert xs + ys == ys;
      assert [] + Trace(ys, f) == Trace(ys, f);
    } else {
      var o := LineStep(xs[0], f);
      assert (xs + ys)[0] == xs[0] && (xs + ys)[1..] == xs[1..] + ys;
      if !Raises(o.actions) {
        var rest := Trace(xs[1..], o.flags);
        TraceAppend(xs[1..], ys, o.flags);
        RaisesConcat(o.actions, rest);
        ConcatAssoc(o.actions, rest, Trace(ys, FlagsAfter(xs[1..], o.flags)));
      }
    }
  }

  /** Scanning a single line is that line's step. */
  lemma TraceSingle(x: string, g: Flags)
    ensures Trace([x], g) == LineStep(x, g).actions
    ensures FlagsAfter([x], g) == LineStep(x, g).flags
  {
    TraceHead([x], g);
    assert [x][1..] == [];
  }

  /** A scan of `xs + [x]` that did not raise: neither did the scan of `xs`, nor the step of `x`. */
  lemma SnocStep(xs: seq<string>, x: string, f: Flags)
    requires !Raises(Trace(xs + [x], f))
    ensures !Raises(Trace(xs, f))
    ensures !Raises(LineStep(x, FlagsAfter(xs, f)).actions)
    ensures FlagsAfter(xs + [x], f) == LineStep(x, FlagsAfter(xs, f)).flags
  {
    TraceAppend(xs, [x], f);
    FlagsAfterAppend(xs, [x], f);
    TraceSingle(x, FlagsAfter(xs, f));
    RaisesConcat(Trace(xs, f), LineStep(x, FlagsAfter(xs, f)).actions);
  }

  /** The first `i` lines are the first `i - 1` and then line `i - 1`. */
  lemma TakeSnoc(lines: seq<string>, i: nat)
    requires 0 < i <= |lines|
    ensures lines[..i] == lines[..i - 1] + [lines[i - 1]]
  {
  }

  /**
   * When the scan of the first `i` lines did not raise, neither did the
   * scan of the first `i - 1`, nor the step of line `i - 1`, which sets the
   * flags.
   */
  lemma PrefixSteps(lines: seq<string>, f: Flags, i: nat)
    requires 0 < i <= |lines| && !Raises(Trace(lines[..i], f))
    ensures !Raises(Trace(lines[..i - 1], f))
    ensures !Raises(LineStep(lines[i - 1], FlagsAfter(lines[..i - 1], f)).actions)
    ensures FlagsAfter(lines[..i], f) == LineStep(lines[i - 1], FlagsAfter(lines[..i - 1], f)).flags
  {
    TakeSnoc(lines, i);
    SnocStep(lines[..i - 1], lines[i - 1], f);
  }

  /** A scan of the first `i` lines that did not raise extends one of the first `i - 1` that did not either. */
  lemma PrefixClean(lines: seq<string>, f: Flags, i: nat)
    requires 0 < i <= |lines| && !Raises(Trace(lines[..i], f))
    ensures !Raises(Trace(lines[..i - 1], f))
  {
    PrefixSteps(lines, f, i);
  }

  /** A line that is `nas0`, or is no counter line while the flag is up, leaves the interface flag up. */
  lemma InterfaceKept(xs: seq<string>, x: string, f: Flags)
    requires !Raises(Trace(xs + [x], f))
    requires IsInterfaceLine(x) || (FlagsAfter(xs, f).haveInterface && !IsCounterLine(x))
    ensures FlagsAfter(xs + [x], f).haveInterface
  {
    SnocStep(xs, x, f);
    LineStepFlags(x, FlagsAfter(xs, f));
  }

  /** After a `nas0` line and no counter line since, the interface flag is up. */
  lemma {:induction false} HaveInterfaceAfter(lines: seq<string>, f: Flags, j: nat, i: nat)
    requires j < i <= |lines| && IsInterfaceLine(lines[j])
    requires forall k :: j < k < i ==> !IsCounterLine(lines[k])
    requires !Raises(Trace(lines[..i], f))
    ensures FlagsAfter(lines[..i], f).haveInterface
    decreases i
  {
    TakeSnoc(lines, i);
    if i - 1 > j {
      PrefixClean(lines, f, i);
      HaveInterfaceAfter(lines, f, j, i - 1);
    }
    InterfaceKept(lines[..i - 1], lines[i - 1], f);
  }

  /**
   * Conversely, the line right after a `nas0` line sets the link state when
   * the scan got that far: to its first word, or it raises `IndexError`
   * when it is blank.
   */
  lemma InterfaceSetsState(lines: seq<string>, f: Flags, i: nat)
    requires 0 < i < |lines| && IsInterfaceLine(lines[i - 1])
    requires !Raises(Trace(lines[..i], f))
    ensures StateToken(lines[i]).Success? ==> SetState(StateToken(lines[i]).value) in Trace(lines, f)
    ensures StateToken(lines[i]).Failure? ==> FirstError(Trace(lines, f)) == Some(IndexError)
  {
    var pre, post := lines[..i], lines[i..];
    var g := FlagsAfter(pre, f);
    PrefixSteps(lines, f, i);
    LineStepFlags(lines[i - 1], FlagsAfter(lines[..i - 1], f));
    assert lines == pre + post && post[0] == lines[i];
    TraceAppend(pre, post, f);
    TraceHead(post, g);
    var o := LineStep(lines[i], g);
    if StateToken(lines[i]).Success? {
      LineStepState(lines[i], g, StateToken(lines[i]).value);
    } else {
      assert o.actions == [Raise(IndexError)];
      FirstErrorConcat(Trace(pre, f), o.actions);
    }
  }

  /**
   * The first counter line after a `nas0` line, when the scan got that far,
   * contributes its two `update_rate` calls (or the exception that cuts
   * them short) to the trace, after effects that did not raise.
   */
  lemma CounterLineFeeds(lines: seq<string>, f: Flags, j: nat, i: nat)
    requires j < i < |lines| && IsInterfaceLine(lines[j]) && IsCounterLine(lines[i])
    requires forall k :: j < k < i ==> !IsCounterLine(lines[k])
    requires !Raises(Trace(lines[..i], f))
    ensures exists a, b :: Trace(lines, f) == a + CounterActions(Words(Strip(lines[i]))) + b && !Raises(a)
  {
    var pre, post := lines[..i], lines[i..];
    var g := FlagsAfter(pre, f);
    HaveInterfaceAfter(lines, f, j, i);
    assert lines == pre + post && post[0] == lines[i];
    TraceAppend(pre, post, f);
    TraceHead(post, g);
    CounterLineToken(lines[i]);
    var st := StateActions(lines[i], g.nextLine);
    var ca := CounterActions(Words(Strip(lines[i])));
    var o := LineStep(lines[i], g);
    assert o.actions == st + ca;
    var b := if Raises(o.actions) then [] else Trace(post[1..], o.flags);
    RaisesConcat(Trace(pre, f), st);
    ConcatAssoc(Trace(pre, f), st + ca, b);
    ConcatAssoc(Trace(pre, f), st, ca);
    var a := Trace(pre, f) + st;
    assert Trace(lines, f) == a + ca + b && !Raises(a);
  }

  /**
   * The first counter line after a `nas0` line feeds `rx` from its second
   * token and then, immediately, `tx` from its sixth; a malformed field
   * ends the scan with its exception, after `rx` when only `tx` is bad.
   */
  lemma CounterLineSamples(lines: seq<string>, f: Flags, j: nat, i: nat)
    requires j < i < |lines| && IsInterfaceLine(lines[j]) && IsCounterLine(lines[i])
    requires forall k :: j < k < i ==> !IsCounterLine(lines[k])
    requires !Raises(Trace(lines[..i], f))
    ensures var parts := Words(Strip(lines[i]));
      CounterField(parts, 1).Success? ==> Sample("rx", CounterField(parts, 1).value) in Trace(lines, f)
    ensures var parts := Words(Strip(lines[i]));
      var t := Trace(lines, f);
      CounterField(parts, 1).Success? && CounterField(parts, 5).Success? ==>
        exists k :: 0 <= k < |t| - 1 && t[k] == Sample("rx", CounterField(parts, 1).value)
                                     && t[k + 1] == Sample("tx", CounterField(parts, 5).value)
    ensures var parts := Words(Strip(lines[i]));
      CounterField(parts, 1).Failure? ==> FirstError(Trace(lines, f)) == Some(CounterField(parts, 1).error)
    ensures var parts := Words(Strip(lines[i]));
      CounterField(parts, 1).Success? && CounterField(parts, 5).Failure? ==>
        FirstError(Trace(lines, f)) == Some(CounterField(parts, 5).error)
  {
    var t := Trace(lines, f);
    CounterLineFeeds(lines, f, j, i);
    var a, b :| t == a + CounterActions(Words(Strip(lines[i]))) + b && !Raises(a);
    CountersWithin(t, a, b, Words(Strip(lines[i])));
  }

  /** What a trace holding a counter line's effects after non-raising ones says about the counters. */
  lemma CountersWithin(t: seq<Action>, a: seq<Action>, b: seq<Action>, parts: seq<string>)
    requires t == a + CounterActions(parts) + b && !Raises(a)
    ensures CounterField(parts, 1).Success? ==> Sample("rx", CounterField(parts, 1).value) in t
    ensures CounterField(parts, 1).Success? && CounterField(parts, 5).Success? ==>
      exists k :: 0 <= k < |t| - 1 && t[k] == Sample("rx", CounterField(parts, 1).value)
                                   && t[k + 1] == Sample("tx", CounterField(parts, 5).value)
    ensures CounterField(parts, 1).Failure? ==> FirstError(t) == Some(CounterField(parts, 1).error)
    ensures CounterField(parts, 1).Success? && CounterField(parts, 5).Failure? ==>
      FirstError(t) == Some(CounterField(parts, 5).error)
  {
    var ca := CounterActions(parts);
    assert t[|a|] == ca[0];
    if CounterField(parts, 1).Success? {
      assert t[|a| + 1] == ca[1];
    }
    if Raises(ca) {
      ConcatAssoc(a, ca, b);
      FirstErrorConcat(a, ca + b);
      PerformStopsAtRaise(Snapshot(map[], map[]), ca, b, 0.0, 0);
      if CounterField(parts, 1).Success? {
        assert ca[1..] == [ca[1]];
      }
    }
  }


  /**
   * Line `i` is reached with the interface flag up: no counter line since
   * the last `nas0` line before it, or, with the flag up on entry, no
   * counter line before it at all.
   */
  predicate UnderInterface(lines: seq<string>, f: Flags, i: nat)
    requires i <= |lines|
  {
    || (f.haveInterface && forall k :: 0 <= k < i ==> !IsCounterLine(lines[k]))
    || exists j :: 0 <= j < i && IsInterfaceLine(lines[j]) && forall k :: j < k < i ==> !IsCounterLine(lines[k])
  }

  /**
   * A counter sample comes only from the first line whose stripped form
   * starts with `RX bytes` after a `nas0` line (or, with the interface flag
   * up on entry, from the first such line): `rx` from its second token,
   * `tx` from its sixth.
   */
  lemma {:induction false} SampleComesAfterInterface(lines: seq<string>, f: Flags, n: string, v: int)
    requires Sample(n, v) in Trace(lines, f)
    ensures n == "rx" || n == "tx"
    ensures exists i :: (
      && 0 <= i < |lines| && IsCounterLine(lines[i])
      && CounterField(Words(Strip(lines[i])), if n == "rx" then 1 else 5) == Success(v)
      && UnderInterface(lines, f, i))
    decreases |lines|
  {
    var o := LineStep(lines[0], f);
    if Sample(n, v) in o.actions {
      LineStepSamples(lines[0], f, n, v);
      assert IsCounterLine(lines[0]) && UnderInterface(lines, f, 0);
    } else {
      assert !Raises(o.actions);
      LineStepFlags(lines[0], f);
      var rest := lines[1..];
      SampleComesAfterInterface(rest, o.flags, n, v);
      var i :| 0 <= i < |rest| && IsCounterLine(rest[i])
        && CounterField(Words(Strip(rest[i])), if n == "rx" then 1 else 5) == Success(v)
        && UnderInterface(rest, o.flags, i);
      assert lines[i + 1] == rest[i];
      ShiftUnderInterface(lines, f, i);
    }
  }

  /** The interface flag after the first line carries over to the whole scan, one line later. */
  lemma ShiftUnderInterface(lines: seq<string>, f: Flags, i: nat)
    requires i < |lines| - 1 && !Raises(LineStep(lines[0], f).actions)
    requires UnderInterface(lines[1..], LineStep(lines[0], f).flags, i)
    ensures UnderInterface(lines, f, i + 1)
  {
    var g := LineStep(lines[0], f).flags;
    var rest := lines[1..];
    LineStepFlags(lines[0], f);
    if g.haveInterface && forall k :: 0 <= k < i ==> !IsCounterLine(rest[k]) {
      if IsInterfaceLine(lines[0]) {
        forall k | 0 < k < i + 1 ensures !IsCounterLine(lines[k]) {
          assert lines[k] == rest[k - 1];
        }
      } else {
        forall k | 0 <= k < i + 1 ensures !IsCounterLine(lines[k]) {
          if k > 0 {
            assert lines[k] == rest[k - 1];
          }
        }
      }
    } else {
      var j :| 0 <= j < i && IsInterfaceLine(rest[j]) && forall k :: j < k < i ==> !IsCounterLine(rest[k]);
      assert IsInterfaceLine(lines[j + 1]);
      forall k | j + 1 < k < i + 1 ensures !IsCounterLine(lines[k]) {
        assert lines[k] == rest[k - 1];
      }
    }
  }

  function SampleCount(acts: seq<Action>): nat {
    if acts == [] then 0 else (if acts[0].Sample? then 1 else 0) + SampleCount(acts[1..])
  }

  function InterfaceLineCount(lines: seq<string>): nat {
    if lines == [] then 0 else (if IsInterfaceLine(lines[0]) then 1 else 0) + InterfaceLineCount(lines[1..])
  }

  lemma {:induction false} SampleCountConcat(a: seq<Action>, b: seq<Action>)
    ensures SampleCount(a + b) == SampleCount(a) + SampleCount(b)
    decreases |a|
  {
    if a == [] {
      assert a + b == b;
    } else {
      assert (a + b)[1..] == a[1..] + b;
      SampleCountConcat(a[1..], b);
    }
  }

  /** One iteration feeds at most the two counters, and only with the interface flag up. */
  lemma LineStepSampleCount(line: string, f: Flags)
    ensures SampleCount(LineStep(line, f).actions) <= if f.haveInterface && IsCounterLine(line) then 2 else 0
  {
    var st := StateActions(line, f.nextLine);
    assert SampleCount(st) == 0 by {
      if st != [] { assert !st[0].Sample?; }
    }
    if !Raises(st) && f.haveInterface && IsCounterLine(line) {
      var ca := CounterActions(Words(Strip(line)));
      SampleCountConcat(st, ca);
      assert SampleCount(ca) <= 2 by {
        if |ca| == 2 { assert ca[1..][1..] == []; } else { assert ca[1..] == []; }
      }
    } else if !Raises(st) {
      assert st + [] == st;
    }
  }

  /**
   * The counters are read at most once per `nas0` line: clearing the
   * interface flag makes a second `RX bytes` line before the next `nas0`
   * line count for nothing.
   */
  lemma {:induction false} SamplesPerInterface(lines: seq<string>, f: Flags)
    ensures SampleCount(Trace(lines, f)) <= 2 * (InterfaceLineCount(lines) + if f.haveInterface then 1 else 0)
    decreases |lines|
  {
    if lines != [] {
      var o := LineStep(lines[0], f);
      LineStepSampleCount(lines[0], f);
      if !Raises(o.actions) {
        LineStepFlags(lines[0], f);
        SamplesPerInterface(lines[1..], o.flags);
        SampleCountConcat(o.actions, Trace(lines[1..], o.flags));
      }
    }
  }

  /** A string whose first character differs from `c` does not start with `[c] + rest`. */
  lemma NotStartsWithChar(s: string, c: char, rest: string)
    requires s != [] && s[0] != c
    ensures !StartsWith(s, [c] + rest)
  {
  }

  /** Decimal counters are single tokens. */
  lemma DecimalNoSpace(n: nat)
    ensures NoSpace(NatToDecimal(n)) && NatToDecimal(n) != [] && ':' !in NatToDecimal(n)
  {
  }

  /** A `bytes:<n>` token yields `n`. */
  lemma ByteFieldValue(parts: seq<string>, k: nat, n: nat)
    requires k < |parts| && parts[k] == "bytes:" + NatToDecimal(n)
    ensures CounterField(parts, k) == Success(n)
  {
    DecimalNoSpace(n);
    assert "bytes:" + NatToDecimal(n) == "bytes" + [':'] + NatToDecimal(n);
    SplitOnCons("bytes", ':', NatToDecimal(n));
    ParseIntRoundTrip(n);
  }

  /** The tokens of the counter line `RX bytes:<rx> (0.9 KiB) TX bytes:<tx> (1.9 KiB)`. */
  function CounterTokens(rx: nat, tx: nat): seq<string> {
    ["RX", "bytes:" + NatToDecimal(rx), "(0.9", "KiB)", "TX", "bytes:" + NatToDecimal(tx), "(1.9", "KiB)"]
  }

  lemma CounterTokensAreWords(rx: nat, tx: nat)
    ensures forall i :: 0 <= i < |CounterTokens(rx, tx)| ==> IsWord(CounterTokens(rx, tx)[i])
  {
    DecimalNoSpace(rx);
    DecimalNoSpace(tx);
    var ws := CounterTokens(rx, tx);
    assert IsWord(ws[0]) && IsWord(ws[2]) && IsWord(ws[3]) && IsWord(ws[4]) && IsWord(ws[6]) && IsWord(ws[7]);
    assert ws[1] == "bytes:" + NatToDecimal(rx) && ws[5] == "bytes:" + NatToDecimal(tx);
  }

  /** The counter line is made of words. */
  lemma CounterLineWords(sp: string, rx: nat, tx: nat)
    requires AllSpace(sp)
    ensures Words(Strip(sp + Unwords(CounterTokens(rx, tx)))) == CounterTokens(rx, tx)
  {
    CounterTokensAreWords(rx, tx);
    StripUnwords(sp, CounterTokens(rx, tx));
    WordsUnwords(CounterTokens(rx, tx));
  }

  /** A line that starts with white space is not an interface line. */
  lemma IndentedNotInterface(line: string)
    requires line != [] && IsSpace(line[0])
    ensures !IsInterfaceLine(line)
  {
    assert "nas0" == ['n'] + "as0";
    NotStartsWithChar(line, 'n', "as0");
  }

  /** A string whose first character is not `R` does not start with `RX bytes`. */
  lemma NotCounterStart(u: string)
    requires u != [] && u[0] != 'R'
    ensures !StartsWith(u, "RX bytes")
  {
    assert "RX bytes" == ['R'] + "X bytes";
    NotStartsWithChar(u, 'R', "X bytes");
  }

  /** The joined counter tokens start with `RX bytes`. */
  lemma CounterTokensStart(rx: nat, tx: nat)
    ensures StartsWith(Unwords(CounterTokens(rx, tx)), "RX bytes")
  {
    var ws := CounterTokens(rx, tx);
    var rest := ":" + NatToDecimal(rx) + " " + Unwords(ws[2..]);
    calc {
      Unwords(ws);
      ws[0] + " " + Unwords(ws[1..]);
      ws[0] + " " + (ws[1] + " " + Unwords(ws[2..]));
      "RX" + " " + ("bytes" + ":" + NatToDecimal(rx) + " " + Unwords(ws[2..]));
      "RX bytes" + rest;
    }
    StartsWithConcat("RX bytes", rest);
  }

  /** An indented counter line is a counter line and not an interface line. */
  lemma CounterLineKind(sp: string, rx: nat, tx: nat)
    requires sp != [] && AllSpace(sp)
    ensures var line := sp + Unwords(CounterTokens(rx, tx));
      IsCounterLine(line) && !IsInterfaceLine(line)
  {
    var ws := CounterTokens(rx, tx);
    CounterTokensAreWords(rx, tx);
    StripUnwords(sp, ws);
    CounterTokensStart(rx, tx);
    IndentedNotInterface(sp + Unwords(ws));
  }

  /** A counter line under an interface feeds its two counters and clears `haveInterface`. */
  lemma CounterStep(line: string, rx: int, tx: int)
    requires IsCounterLine(line) && !IsInterfaceLine(line)
    requires CounterField(Words(Strip(line)), 1) == Success(rx)
    requires CounterField(Words(Strip(line)), 5) == Success(tx)
    ensures LineStep(line, Flags(true, false)) == LineOutcome([Sample("rx", rx), Sample("tx", tx)], Flags(false, false))
    ensures !Raises([Sample("rx", rx), Sample("tx", tx)])
  {
    assert StateActions(line, false) == [];
    assert [] + [Sample("rx", rx), Sample("tx", tx)] == [Sample("rx", rx), Sample("tx", tx)];
  }

  /** Right after `nas0`, a line that is neither kind sets the link state and clears `nextLine`. */
  lemma FlagsStep(line: string, state: string)
    requires !IsInterfaceLine(line) && !IsCounterLine(line) && StateToken(line) == Success(state)
    ensures LineStep(line, Flags(true, true)) == LineOutcome([SetState(state)], Flags(true, false))
    ensures !Raises([SetState(state)])
  {
    assert [SetState(state)] + [] == [SetState(state)];
  }

  /**
   * Under an interface, the indented counter line
   * `RX bytes:<rx> (0.9 KiB) TX bytes:<tx> (1.9 KiB)` feeds rx, then tx,
   * to the rate calculator and clears `haveInterface`.
   */
  lemma CounterLineStep(sp: string, rx: nat, tx: nat)
    requires sp != [] && AllSpace(sp)
    ensures LineStep(sp + Unwords(CounterTokens(rx, tx)), Flags(true, false))
         == LineOutcome([Sample("rx", rx), Sample("tx", tx)], Flags(false, false))
  {
    var ws := CounterTokens(rx, tx);
    CounterLineKind(sp, rx, tx);
    CounterLineWords(sp, rx, tx);
    ByteFieldValue(ws, 1, rx);
    ByteFieldValue(ws, 5, tx);
    CounterStep(sp + Unwords(ws), rx, tx);
  }

  /** The words of the flags line are words. */
  lemma StateLineWords(state: string, more: seq<string>)
    requires IsWord(state)
    requires forall i :: 0 <= i < |more| ==> IsWord(more[i])
    ensures forall i :: 0 <= i < |[state] + more| ==> IsWord(([state] + more)[i])
  {
    var ws := [state] + more;
    forall i | 0 <= i < |ws| ensures IsWord(ws[i]) {
      if i > 0 { assert ws[i] == more[i - 1]; }
    }
  }

  /** The indented line after `nas0` yields its first word as the link state. */
  lemma StateLineToken(sp: string, state: string, more: seq<string>)
    requires AllSpace(sp)
    requires IsWord(state)
    requires forall i :: 0 <= i < |more| ==> IsWord(more[i])
    ensures StateToken(sp + Unwords([state] + more)) == Success(state)
  {
    var ws := [state] + more;
    StateLineWords(state, more);
    StripUnwords(sp, ws);
    WordsUnwords(ws);
  }

  /** A line whose first word does not begin with `R` is not a counter line. */
  lemma StateLineNotCounter(sp: string, state: string, more: seq<string>)
    requires AllSpace(sp)
    requires IsWord(state) && state[0] != 'R'
    requires forall i :: 0 <= i < |more| ==> IsWord(more[i])
    ensures !IsCounterLine(sp + Unwords([state] + more))
  {
    var ws := [state] + more;
    StateLineWords(state, more);
    StripUnwords(sp, ws);
    UnwordsEnds(ws);
    NotCounterStart(Unwords(ws));
  }

  /** Right after `nas0`, the indented flags line sets its first word as the link state and clears `nextLine`. */
  lemma StateLineStep(sp: string, state: string, more: seq<string>)
    requires sp != [] && AllSpace(sp)
    requires IsWord(state) && state[0] != 'R'
    requires forall i :: 0 <= i < |more| ==> IsWord(more[i])
    ensures LineStep(sp + Unwords([state] + more), Flags(true, true)) == LineOutcome([SetState(state)], Flags(true, false))
  {
    StateLineToken(sp, state, more);
    StateLineNotCounter(sp, state, more);
    IndentedNotInterface(sp + Unwords([state] + more));
    FlagsStep(sp + Unwords([state] + more), state);
  }

  /**
   * An `ifconfig` block: a `nas0...` header line, a flags line right after
   * it whose first word is the link state, then the byte counter line. The
   * scan sets the link state and feeds rx, then tx, to the rate calculator,
   * and does not raise. `StateLineStep` and `CounterLineStep` show that the
   * indented lines `<state> ...` and `RX bytes:<rx> (0.9 KiB) TX
   * bytes:<tx> (1.9 KiB)` are such lines.
   */
  lemma IfconfigBlock(header: string, flagsLine: string, counterLine: string, state: string, rx: int, tx: int)
    requires IsInterfaceLine(header)
    requires !IsInterfaceLine(flagsLine) && !IsCounterLine(flagsLine) && StateToken(flagsLine) == Success(state)
    requires !IsInterfaceLine(counterLine) && IsCounterLine(counterLine)
    requires CounterField(Words(Strip(counterLine)), 1) == Success(rx)
    requires CounterField(Words(Strip(counterLine)), 5) == Success(tx)
    ensures Trace([header, flagsLine, counterLine], Flags(false, false)) == [SetState(state)] + [Sample("rx", rx), Sample("tx", tx)]
  {
    FlagsStep(flagsLine, state);
    CounterStep(counterLine, rx, tx);
    ThreeLines(header, flagsLine, counterLine, [SetState(state)], Flags(true, false), [Sample("rx", rx), Sample("tx", tx)]);
  }

  /** A `nas0` line seen idle has no effect of its own: the trace is that of the lines after it. */
  lemma ThreeLines(l0: string, l1: string, l2: string, a1: seq<Action>, f2: Flags, a2: seq<Action>)
    requires IsInterfaceLine(l0)
    requires LineStep(l1, Flags(true, true)) == LineOutcome(a1, f2) && !Raises(a1)
    requires LineStep(l2, f2).actions == a2 && !Raises(a2)
    ensures Trace([l0, l1, l2], Flags(false, false)) == a1 + a2
  {
    LineStepIdle(l0);
    TwoLines(l1, l2, Flags(true, true), a1, a2);
    TraceTail([l0, l1, l2], Flags(false, false));
    assert [l0, l1, l2][1..] == [l1, l2];
  }

  /** The trace of one line that does not raise is that line's effects. */
  lemma OneLine(line: string, f: Flags, acts: seq<Action>)
    requires LineStep(line, f).actions == acts && !Raises(acts)
    ensures Trace([line], f) == acts
  {
    TraceTail([line], f);
    assert [line][1..] == [];
  }

  /** The trace of two lines that do not raise is their effects in order. */
  lemma TwoLines(l1: string, l2: string, f: Flags, a1: seq<Action>, a2: seq<Action>)
    requires LineStep(l1, f).actions == a1 && !Raises(a1)
    requires LineStep(l2, LineStep(l1, f).flags).actions == a2 && !Raises(a2)
    ensures Trace([l1, l2], f) == a1 + a2
  {
    OneLine(l2, LineStep(l1, f).flags, a2);
    TraceTail([l1, l2], f);
    assert [l1, l2][1..] == [l2];
  }
}

=== FILE: text.dfy ===
/**
 * The byte-string operations the bridge applies to the modem's output,
 * with the semantics Python gives them: `strip()`, `split()` with and
 * without a separator, `startswith`, `int()` on a decimal literal, and
 * the decimal rendering `"{}".format(n)` of an integer.
 */
module Text {
  import opened Wrappers

  /** The ASCII whitespace bytes that `bytes.strip()` and `bytes.split()` remove. */
  predicate IsSpace(c: char) {
    c == ' ' || c == '\t' || c == '\n' || c == '\r' || c == '\U{000B}' || c == '\U{000C}'
  }

  predicate IsDigit(c: char) {
    '0' <= c <= '9'
  }

  /** The class `[a-zA-Z0-9]` of a regular expression over ASCII. */
  predicate IsAsciiAlnum(c: char) {
    'a' <= c <= 'z' || 'A' <= c <= 'Z' || IsDigit(c)
  }

  predicate StartsWith(s: string, p: string) {
    |p| <= |s| && s[..|p|] == p
  }

  predicate NoSpace(s: string) {
    forall i :: 0 <= i < |s| ==> !IsSpace(s[i])
  }

  /** `s` without its leading whitespace. */
  function TrimStart(s: string): (r: string)
    ensures |r| <= |s| && r == s[|s| - |r|..]
    ensures r == [] || !IsSpace(r[0])
    ensures forall i :: 0 <= i < |s| - |r| ==> IsSpace(s[i])
  {
    if s != [] && IsSpace(s[0]) then TrimStart(s[1..]) else s
  }

  /** `s` without its trailing whitespace. */
  function TrimEnd(s: string): (r: string)
    ensures |r| <= |s| && r == s[..|r|]
    ensures r == [] || !IsSpace(r[|r| - 1])
    ensures forall i :: |r| <= i < |s| ==> IsSpace(s[i])
  {
    if s != [] && IsSpace(s[|s| - 1]) then TrimEnd(s[..|s| - 1]) else s
  }

  /** `bytes.strip()`: both ends trimmed. */
  function Strip(s: string): (r: string)
    ensures r == [] || (!IsSpace(r[0]) && !IsSpace(r[|r| - 1]))
  {
    TrimEnd(TrimStart(s))
  }

  /** `strip()` keeps a slice of `s` and drops only whitespace around it. */
  lemma StripIsSlice(s: string)
    ensures exists i :: 0 <= i && i + |Strip(s)| <= |s| && AllSpace(s[..i]) && s[i..i + |Strip(s)|] == Strip(s)
                        && AllSpace(s[i + |Strip(s)|..])
  {
    var u := TrimStart(s);
    var r := TrimEnd(u);
    var i := |s| - |u|;
    assert s[i..i + |r|] == r;
    assert AllSpace(s[..i]);
    var t := s[i + |r|..];
    forall k | 0 <= k < |t| ensures IsSpace(t[k]) {
      assert t[k] == u[|r| + k];
    }
  }

  /** Length of the longest prefix of `s` that holds no whitespace. */
  function WordLength(s: string): (n: nat)
    ensures n <= |s| && NoSpace(s[..n])
    ensures n < |s| ==> IsSpace(s[n])
  {
    if s == [] || IsSpace(s[0]) then 0 else 1 + WordLength(s[1..])
  }

  /** `bytes.split()` with no separator: the maximal runs of non-whitespace. */
  function Words(s: string): (ws: seq<string>)
    ensures forall i :: 0 <= i < |ws| ==> ws[i] != [] && NoSpace(ws[i])
    decreases |s|
  {
    var t := TrimStart(s);
    if t == [] then []
    else
      var n := WordLength(t);
      [t[..n]] + Words(t[n..])
  }

  predicate AllSpace(s: string) {
    forall i :: 0 <= i < |s| ==> IsSpace(s[i])
  }

  /** Leading whitespace is exactly what `TrimStart` drops. */
  lemma {:induction false} TrimStartSkips(sp: string, rest: string)
    requires AllSpace(sp)
    ensures TrimStart(sp + rest) == TrimStart(rest)
    decreases |sp|
  {
    if sp != [] {
      assert (sp + rest)[1..] == sp[1..] + rest;
      TrimStartSkips(sp[1..], rest);
    } else {
      assert sp + rest == rest;
    }
  }

  lemma {:induction false} WordLengthOf(w: string, rest: string)
    requires NoSpace(w) && (rest == [] || IsSpace(rest[0]))
    ensures WordLength(w + rest) == |w|
    decreases |w|
  {
    if w != [] {
      assert (w + rest)[1..] == w[1..] + rest;
      WordLengthOf(w[1..], rest);
    } else {
      assert w + rest == rest;
    }
  }

  /** A word followed by whitespace is the first word `split()` returns. */
  lemma WordsCons(w: string, sp: string, rest: string)
    requires w != [] && NoSpace(w) && sp != [] && AllSpace(sp)
    ensures Words(w + sp + rest) == [w] + Words(rest)
  {
    var s := w + sp + rest;
    assert TrimStart(s) == s;
    WordLengthOf(w, sp + rest);
    assert s == w + (sp + rest);
    assert s[|w|..] == sp + rest;
    TrimStartSkips(sp, rest);
    assert Words(sp + rest) == Words(rest);
  }

  /** A lone word splits to itself. */
  lemma WordsSingle(w: string)
    requires w != [] && NoSpace(w)
    ensures Words(w) == [w]
  {
    WordLengthOf(w, []);
    assert w + [] == w;
  }

  /** `b' '.join(ws)`. */
  function Unwords(ws: seq<string>): string
    requires ws != []
  {
    if |ws| == 1 then ws[0] else ws[0] + " " + Unwords(ws[1..])
  }

  predicate IsWord(w: string) {
    w != [] && NoSpace(w)
  }

  /** `split()` undoes `join` of words: splitting the joined words gives them back. */
  lemma {:induction false} WordsUnwords(ws: seq<string>)
    requires ws != [] && forall i :: 0 <= i < |ws| ==> IsWord(ws[i])
    ensures Words(Unwords(ws)) == ws
    decreases |ws|
  {
    if |ws| == 1 {
      WordsSingle(ws[0]);
    } else {
      var rest := Unwords(ws[1..]);
      calc {
        Words(Unwords(ws));
        Words(ws[0] + " " + rest);
        { WordsCons(ws[0], " ", rest); }
        [ws[0]] + Words(rest);
        { WordsUnwords(ws[1..]); }
        [ws[0]] + ws[1..];
      }
    }
  }

  /** Joined words begin with the first word's first character and end with the last word's last. */
  lemma {:induction false} UnwordsEnds(ws: seq<string>)
    requires ws != [] && forall i :: 0 <= i < |ws| ==> IsWord(ws[i])
    ensures IsWord(ws[0]) && IsWord(ws[|ws| - 1])
    ensures Unwords(ws) != [] && Unwords(ws)[0] == ws[0][0]
    ensures Unwords(ws)[|Unwords(ws)| - 1] == ws[|ws| - 1][|ws[|ws| - 1]| - 1]
    decreases |ws|
  {
    if |ws| > 1 {
      UnwordsEnds(ws[1..]);
    }
  }

  /** Indented joined words strip to the joined words. */
  lemma StripUnwords(sp: string, ws: seq<string>)
    requires AllSpace(sp) && ws != [] && forall i :: 0 <= i < |ws| ==> IsWord(ws[i])
    ensures Strip(sp + Unwords(ws)) == Unwords(ws)
  {
    var u := Unwords(ws);
    UnwordsEnds(ws);
    TrimStartSkips(sp, u);
    assert TrimStart(u) == u;
    assert TrimEnd(u) == u;
  }

  lemma StartsWithConcat(p: string, rest: string)
    ensures StartsWith(p + rest, p)
  {
    assert (p + rest)[..|p|] == p;
  }

  /** `bytes.split(c)`: the pieces between occurrences of `c`, empty ones kept. */
  function SplitOn(s: string, c: char): (parts: seq<string>)
    ensures |parts| >= 1
    ensures forall i :: 0 <= i < |parts| ==> c !in parts[i]
  {
    if c !in s then [s]
    else
      var k := IndexOf(s, c);
      [s[..k]] + SplitOn(s[k + 1..], c)
  }

  /** Position of the first `c` in `s`. */
  function IndexOf(s: string, c: char): (k: nat)
    requires c in s
    ensures k < |s| && s[k] == c && c !in s[..k]
  {
    if s[0] == c then 0 else 1 + IndexOf(s[1..], c)
  }

  /** The first piece of a split is the text before the first separator. */
  lemma SplitOnCons(a: string, c: char, b: string)
    requires c !in a
    ensures SplitOn(a + [c] + b, c) == [a] + SplitOn(b, c)
  {
    var s := a + [c] + b;
    assert s[|a|] == c;
    var k := IndexOf(s, c);
    assert s[..k] == a && s[k + 1..] == b;
  }

  /** `sep.join(parts)` with a one-character separator. */
  function JoinOn(parts: seq<string>, c: char): string
    requires |parts| >= 1
  {
    if |parts| == 1 then parts[0] else parts[0] + [c] + JoinOn(parts[1..], c)
  }

  /** Splitting loses nothing: joining the pieces back gives the original string. */
  lemma {:induction false} SplitOnJoins(s: string, c: char)
    ensures JoinOn(SplitOn(s, c), c) == s
    decreases |s|
  {
    if c in s {
      var k := IndexOf(s, c);
      var parts := SplitOn(s, c);
      assert parts == [s[..k]] + SplitOn(s[k + 1..], c);
      assert parts[0] == s[..k] && parts[1..] == SplitOn(s[k + 1..], c);
      calc {
        JoinOn(parts, c);
        parts[0] + [c] + JoinOn(parts[1..], c);
        { SplitOnJoins(s[k + 1..], c); }
        s[..k] + [c] + s[k + 1..];
      }
      assert s == s[..k] + [c] + s[k + 1..];
    }
  }

  /**
   * The digits of a Python integer literal in base 10: digits, with single
   * underscores allowed between two digits.
   */
  predicate WellFormedDigits(s: string) {
    && |s| > 0
    && IsDigit(s[0]) && IsDigit(s[|s| - 1])
    && (forall i :: 0 <= i < |s| ==> IsDigit(s[i]) || s[i] == '_')
    && (forall i :: 0 <= i < |s| - 1 ==> s[i] == '_' ==> s[i + 1] != '_')
  }

  /** The value of a digit string, underscores skipped. */
  function DigitsValue(s: string): (n: nat)
  {
    if s == [] then 0
    else if IsDigit(s[|s| - 1]) then 10 * DigitsValue(s[..|s| - 1]) + (s[|s| - 1] - '0') as nat
    else DigitsValue(s[..|s| - 1])
  }

  /** `int(s)` in base 10: an optional sign, then well-formed digits; `None` where Python raises `ValueError`. */
  function ParseInt(s: string): (r: Option<int>)
    ensures r.Some? ==> |s| > 0
    ensures r.Some? && r.value < 0 ==> s[0] == '-'
    ensures r.Some? ==> forall i :: 0 <= i < |s| ==>
      IsDigit(s[i]) || s[i] == '_' || (i == 0 && (s[i] == '+' || s[i] == '-'))
    ensures r.Some? ==> exists i :: 0 <= i < |s| && IsDigit(s[i])
  {
    if |s| > 0 && (s[0] == '+' || s[0] == '-') then
      if WellFormedDigits(s[1..]) then
        var n: int := DigitsValue(s[1..]);
        Some(if s[0] == '-' then -n else n)
      else None
    else if WellFormedDigits(s) then Some(DigitsValue(s))
    else None
  }

  function DigitChar(d: nat): (c: char)
    requires d < 10
    ensures IsDigit(c) && (c - '0') as nat == d
  {
    ('0' as int + d) as char
  }

  /** The decimal rendering of a natural number, without leading zeros. */
  function NatToDecimal(n: nat): (s: string)
    ensures |s| >= 1 && IsDigit(s[0]) && IsDigit(s[|s| - 1])
    ensures forall i :: 0 <= i < |s| ==> IsDigit(s[i])
    ensures |s| > 1 ==> s[0] != '0'
  {
    if n < 10 then [DigitChar(n)] else NatToDecimal(n / 10) + [DigitChar(n % 10)]
  }

  /** `"{}".format(i)` for an integer. */
  function IntToDecimal(i: int): (s: string)
    ensures i >= 0 ==> s == NatToDecimal(i)
    ensures i < 0 ==> s == "-" + NatToDecimal(-i)
  {
    if i < 0 then "-" + NatToDecimal(-i) else NatToDecimal(i)
  }

  lemma {:induction false} DecimalValue(n: nat)
    ensures WellFormedDigits(NatToDecimal(n))
    ensures DigitsValue(NatToDecimal(n)) == n
  {
    var s := NatToDecimal(n);
    if n >= 10 {
      DecimalValue(n / 10);
      assert s[..|s| - 1] == NatToDecimal(n / 10);
    }
  }

  /** Unsigned well-formed digits parse to their value. */
  lemma ParseUnsigned(d: string)
    requires WellFormedDigits(d)
    ensures ParseInt(d) == Some(DigitsValue(d))
  {
    assert IsDigit(d[0]);
  }

  /** A minus sign before well-formed digits negates their value. */
  lemma ParseNegative(d: string)
    requires WellFormedDigits(d)
    ensures ParseInt("-" + d) == Some(-(DigitsValue(d) as int))
  {
    var s := "-" + d;
    assert |s| > 0 && s[0] == '-' && s[1..] == d;
  }

  /** `int()` reads back what `format` wrote: rendering then parsing is the identity. */
  lemma ParseIntRoundTrip(i: int)
    ensures ParseInt(IntToDecimal(i)) == Some(i)
  {
    if i < 0 {
      ParseNegativeDecimal(-i);
    } else {
      ParseDecimal(i);
    }
  }

  lemma ParseDecimal(n: nat)
    ensures ParseInt(NatToDecimal(n)) == Some(n)
  {
    DecimalValue(n);
    ParseUnsigned(NatToDecimal(n));
  }

  lemma ParseNegativeDecimal(n: nat)
    ensures ParseInt("-" + NatToDecimal(n)) == Some(-(n as int))
  {
    DecimalValue(n);
    ParseNegative(NatToDecimal(n));
  }
}

=== FILE: topics.dfy ===
/**
 * The MQTT topic prefix the bridge publishes under:
 * `<discovery_prefix>/sensor/<host:port sanitised>/<object_id>`, where the
 * sanitising is `re.sub(r'[^a-zA-Z0-9]', '_', ...)`.
 */
module Topics {
  import opened Text

  /** Every character outside `[a-zA-Z0-9]` replaced by `_`, one for one. */
  function Sanitize(s: string): (r: string)
    ensures |r| == |s|
    ensures forall i :: 0 <= i < |s| ==> r[i] == if IsAsciiAlnum(s[i]) then s[i] else '_'
  {
    if s == [] then [] else Sanitize(s[..|s| - 1]) + [if IsAsciiAlnum(s[|s| - 1]) then s[|s| - 1] else '_']
  }

  /** The sanitised text is a single topic level made only of letters, digits and `_`. */
  lemma SanitizeAlphabet(s: string)
    ensures forall i :: 0 <= i < |Sanitize(s)| ==> IsAsciiAlnum(Sanitize(s)[i]) || Sanitize(s)[i] == '_'
    ensures '/' !in Sanitize(s)
  {
  }

  /** Sanitising twice changes nothing more. */
  lemma SanitizeIdempotent(s: string)
    ensures Sanitize(Sanitize(s)) == Sanitize(s)
  {
  }

  /** The text of `"{}:{}".format(host, port)`. */
  function Endpoint(host: string, port: int): (e: string)
    ensures |e| == |host| + 1 + |IntToDecimal(port)| && e[|host|] == ':'
    ensures e[..|host|] == host && e[|host| + 1..] == IntToDecimal(port)
  {
    host + ":" + IntToDecimal(port)
  }

  /** `"/".join([discovery_prefix, 'sensor', sanitised endpoint, object_id])`. */
  function Prefix(discovery: string, host: string, port: int, objectId: string): (p: string)
    ensures |p| == |discovery| + 8 + |host| + 1 + |IntToDecimal(port)| + 1 + |objectId|
    ensures StartsWith(p, discovery + "/sensor/")
    ensures p[|p| - |objectId| - 1..] == "/" + objectId
    ensures p[|discovery| + 8..|p| - |objectId| - 1] == Sanitize(Endpoint(host, port))
  {
    var head := discovery + "/sensor/";
    var middle := Sanitize(Endpoint(host, port));
    var tail := "/" + objectId;
    var p := head + middle + tail;
    assert p[..|head|] == head;
    assert p[|head|..|head| + |middle|] == middle;
    assert p[|head| + |middle|..] == tail;
    p
  }

  /** The default endpoint `172.16.1.254:23` becomes one topic level. */
  lemma DefaultEndpoint()
    ensures Sanitize(Endpoint("172.16.1.254", 23)) == "172_16_1_254_23"
  {
    assert NatToDecimal(2) == "2";
    assert NatToDecimal(23) == "23";
    assert Endpoint("172.16.1.254", 23) == "172.16.1.254:23";
    var r := Sanitize("172.16.1.254:23");
    assert forall i :: 0 <= i < 15 ==> r[i] == "172_16_1_254_23"[i];
  }

  /** The default configuration's prefix. */
  lemma DefaultPrefix()
    ensures Prefix("homeassistant", "172.16.1.254", 23, "all0333b")
         == "homeassistant/sensor/172_16_1_254_23/all0333b"
  {
    DefaultEndpoint();
  }

  /** The full topic of one output: `"{}/{}".format(prefix, key)`. */
  function TopicOf(prefix: string, key: string): (t: string)
    ensures |t| == |prefix| + 1 + |key| && t[|prefix|] == '/'
    ensures t[..|prefix|] == prefix && t[|prefix| + 1..] == key
  {
    prefix + "/" + key
  }
}

=== FILE: wrappers.dfy ===
/** Option and Result, the two wrappers the model uses for absent values and raised exceptions. */
module Wrappers {

  /** Python's `None` or a present value. */
  datatype Option<+T> = None | Some(value: T)

  /** A value, or the exception the source would raise instead. */
  datatype Result<+R, +E> = Success(value: R) | Failure(error: E)
}
